=== FILE: README.md ===
# USS-Injection.Defend in Dafny

USS-Injection.Defend is a small pipeline that screens untrusted text before it reaches a
language model. This project models its stages as pure functions over strings:

- **Input gate.** The first version refuses input that holds a forbidden phrase as a
  case-insensitive substring. Version 1.1 normalises the input, then checks forbidden
  patterns in order and stops at the first hit, which answers denied. If none hits, it
  collects every suspicious pattern and answers suspicious or allowed.
- **Intent detector.** It counts how many of seven imperative phrases occur, ignoring case.
  Two or more hits give a high-risk command, one a medium-risk possible command, and none
  low-risk information.
- **Sanitizer.** Both versions remove markup tags (`<[^>]+>`) and the four zero-width
  characters. The first version then replaces five phrases by `[FILTERED]`. Version 1.1
  also decodes HTML entities, then replaces each dangerous phrase by `[FILTERED:<tag>]` and
  records the tags of the rules that fired.
- **Prompt builder.** Both versions lay out three sections: system, user and data. Both
  strip each block and put in a placeholder when no data is given. Version 1.1 also
  escapes `###` as `# # #` before stripping. It caps the user block at 3000 characters and
  the data block at 5000, then hashes the prompt and reports the block lengths and whether
  the input was too long.
- **Prompt cache.** An in-memory map from a prompt's SHA-256 digest to the prompt, its
  creation time and its time to live. It supports store, retrieve (which drops an expired
  entry), exists, cleanup and stats.

Library calls whose internals are not modelled are parameters, so every property holds for
any implementation of them that meets its stated contract. They are declared in module
`Externals`:

- SHA-256;
- `html.unescape`;
- NFKC normalisation;
- regular-expression search and substitution in the version 1.1 stages;
- the shortening branch of `textwrap.shorten`, whose only assumed fact is that its result
  fits the width. The real function meets this at the widths 3000 and 5000 used here; it
  raises `ValueError` for widths below the placeholder's 14 characters, which the builder
  never asks for.

The clock is the explicit argument `now`.

Proved properties include:

- **Cache.** Store then retrieve returns the prompt up to and including `ttl` seconds later,
  and nothing after that. Cleanup removes exactly the expired entries, and stats partitions
  the entries.
- **Tag stripper.** Its output has no tag-shaped span, and the characters it keeps stay in
  their original order.
- **Version 1.1 sanitizer.** Its tag list is in table order without repeats. A tag is
  recorded exactly when its rule fires on the text the earlier rules produced.
- **First sanitizer.** Its output contains none of its five phrases.
- **Version 1.1 gate.** The verdict and the matched list are pinned down completely.
- **Prompt builders.** Each prompt splits back into its sections. A sanitised block never
  contains one of the three section titles. This holds although escaping does not remove
  every `###`: five `#` in a row become `# # ###`. The two builders agree on inputs that
  need no escaping or capping.

## Model

| member | source | states |
|---|---|---|
| Strings.Strip | prompt_builder1.1.py:21 | `strip()` leaves no whitespace at either end and returns the contiguous middle of the text once whitespace-only ends are cut |
| Strings.StripEmptyIff | prompt_builder.py:21 | stripping yields the empty string exactly when the text is all whitespace |
| Strings.LowerAscii | input_gate.py:17 | `lower()` keeps the length, leaves no upper-case ASCII letter, keeps every other character, and turns each upper-case letter into its lower-case partner |
| Strings.LowerAsciiIdempotent | input_gate.py:17 | lower-casing lower-cased text changes nothing |
| Strings.ContainsIff | input_gate.py:19 | `pattern in text` holds exactly when the pattern occurs at some position |
| Strings.ContainsExtend | input_gate.py:18-19 | an occurrence survives any text added before or after |
| Strings.NatToString | context_detector.py:38 | the hit count is written as a non-empty string of decimal digits, without a leading zero, whose decimal value is the count |
| TextFilters.NextGt | sanitizer1.1.py:13 | finds the first `>` at or after a position, or reports that none follows |
| TextFilters.StripTagsSubsequence | sanitizer1.1.py:12-13 | the characters the tag stripper keeps appear in the input in the same order |
| TextFilters.StripTagsTagFree | sanitizer1.1.py:12-13 | the output holds no `<`, then one or more non-`>` characters, then `>` |
| TextFilters.StripTagsNoOpenPrefix | sanitizer1.1.py:12-13 | text without `<` passes the stripper unchanged, whatever follows it |
| TextFilters.StripTagsWrapped | sanitizer1.1.py:12-13 | an element `<name>body</name>` with a `<`-free body is reduced to its body |
| TextFilters.StripTagsIdentityIff | sanitizer1.1.py:12-13 | the stripper leaves its input unchanged exactly when the input holds no tag-shaped span |
| TextFilters.StripTagsIdempotent | sanitizer1.1.py:12-13 | stripping twice equals stripping once |
| TextFilters.RemoveZeroWidth | sanitizer1.1.py:15-16 | the output holds none of U+200B, U+200C, U+200D, U+FEFF and is no longer than the input |
| TextFilters.RemoveZeroWidthCounts | sanitizer1.1.py:15-16 | every other character keeps its multiplicity, and the four zero-width characters have none |
| TextFilters.RemoveZeroWidthAppend | sanitizer1.1.py:15-16 | filtering a concatenation concatenates the filtered parts, so the kept characters stay in input order |
| TextFilters.RemoveZeroWidthIdentityIff | sanitizer1.1.py:15-16 | the filter leaves its input unchanged exactly when the input holds no zero-width character |
| Sanitizer.Marker | sanitizer1.1.py:35 | the replacement is `[FILTERED:`, the tag, then `]` |
| Sanitizer.NeutralizeText | sanitizer1.1.py:31-37 | the phrase stage's final text is the text after every rule has been applied in table order |
| Sanitizer.NeutralizeOrder | sanitizer1.1.py:31-36 | the recorded tags are a subsequence of the table's tags |
| Sanitizer.NeutralizeFiresAt | sanitizer1.1.py:32-35 | with distinct tags, a rule's tag is recorded exactly when its pattern is found in the text the earlier rules produced |
| Sanitizer.NeutralizeFires | sanitizer1.1.py:32-35 | the same for every rule of the table at once |
| Sanitizer.NeutralizeSpec | sanitizer1.1.py:31-37 | final text, order, no duplicates, at most one tag per rule, and recorded-iff-fired, together |
| Sanitizer.NeutralizeNoMatch | sanitizer1.1.py:31-37 | nothing is recorded exactly when no pattern is found in the input, and then the text comes back unchanged |
| Sanitizer.DangerousPhrasesDistinct | sanitizer1.1.py:23-29 | the five tags are `ignore_block`, `role_switch`, `identity_shift`, `memory_wipe`, `forced_response`, pairwise distinct |
| Sanitizer.NeutralizeDangerousPhrasesSpec | sanitizer1.1.py:21-37 | on the fixed table: at most five tags, no repeats, in table order, each recorded exactly when its rule fires |
| Sanitizer.SanitizeText | sanitizer1.1.py:59-64 | `original_length` is the raw length and `cleaned_length` the length of the clean text |
| Sanitizer.SanitizeTextSpec | sanitizer1.1.py:52-55 | the phrase stage runs on the unescaped, zero-width-filtered, tag-free text; its bookkeeping carries to the result, and `removed` is empty exactly when no pattern is found there |
| Sanitizer.SanitizeTextCleanInput | sanitizer1.1.py:52-64 | input with no tag, no zero-width character, nothing to unescape and no dangerous phrase comes back unchanged with nothing recorded |
| LegacySanitizer.MatchesAtLower | sanitizer.py:32 | a case-insensitive match is the lower-cased window equal to the phrase |
| LegacySanitizer.LineEnd | sanitizer.py:26-29 | the end of a `.*` run lies between its start and the end of the text |
| LegacySanitizer.LineEndSpec | sanitizer.py:26-29 | `.*` stops at the first line feed: none before the end point, one at it unless the text ends there |
| LegacySanitizer.MatchEnd | sanitizer.py:25-29 | a match covers at least its phrase and stays within the text |
| LegacySanitizer.DangerousPhrasesNeutral | sanitizer.py:24-30 | each of the five phrases holds a space and no bracket, so no match can overlap a `[FILTERED]` marker |
| LegacySanitizer.SubstituteChars | sanitizer.py:32 | a substitution's output consists of input characters and marker characters |
| LegacySanitizer.SubstituteNoOccurrence | sanitizer.py:32 | a text without the phrase is left unchanged |
| LegacySanitizer.SubstituteOccurrence | sanitizer.py:32 | a text with the phrase is changed |
| LegacySanitizer.SubstituteIdentityIff | sanitizer.py:32 | a substitution is the identity exactly when the phrase does not occur |
| LegacySanitizer.SubstitutePlainPrefix | sanitizer.py:32 | up to the first marker the output equals the input |
| LegacySanitizer.SubstituteRemoves | sanitizer.py:32 | after its substitution the phrase occurs nowhere, ignoring case |
| LegacySanitizer.SubstituteOccurrenceOrigin | sanitizer.py:31-32 | every occurrence of a phrase in a substitution's output was already in its input |
| LegacySanitizer.SubstitutePreserves | sanitizer.py:31-32 | a substitution never creates an occurrence of another phrase |
| LegacySanitizer.SubstituteAllPreserves | sanitizer.py:31-32 | the later passes do not bring back a phrase an earlier pass removed |
| LegacySanitizer.SubstituteAllRemoves | sanitizer.py:31-32 | after the passes in list order none of the phrases occurs |
| LegacySanitizer.SubstituteAllNoOccurrence | sanitizer.py:31-32 | text holding none of the phrases passes all five passes unchanged |
| LegacySanitizer.SubstituteAllNoZeroWidth | sanitizer.py:31-32 | the passes add no zero-width character |
| LegacySanitizer.SanitizeTextSpec | sanitizer.py:17-35 | the output holds no zero-width character and none of the five phrases |
| LegacySanitizer.SanitizeTextTagPass | sanitizer.py:18 | after the tag pass no `<[^>]+>` span remains, and the pass changes nothing exactly on tag-free input |
| LegacySanitizer.SanitizeTextCleanInput | sanitizer.py:17-35 | input with no tag, no zero-width character and no phrase is returned unchanged |
| LegacyInputGate.NoneOccurIff | input_gate.py:18-23 | the loop finishes with True exactly when no phrase occurs in the lowered text |
| LegacyInputGate.AuthorizeInputSpec | input_gate.py:15-23 | input is refused exactly when a forbidden phrase is a substring of its lower-cased form |
| LegacyInputGate.AuthorizeInputExtend | input_gate.py:18-19 | without word boundaries, text added on either side of a refused input keeps it refused |
| LegacyInputGate.AuthorizeInputIgnoresCase | input_gate.py:17-19 | `YOU ARE NOW` is refused |
| InputGate.NormalizeInput | input_gate1.1.py:29-36 | the normalised text is as long as the NFKC form, holds no upper-case ASCII letter, and lower-casing it again changes nothing |
| InputGate.FirstMatch | input_gate1.1.py:52-58 | the forbidden loop stops at the first pattern found, and none before it is found; no index means none is found |
| InputGate.AllMatches | input_gate1.1.py:61-63 | the suspicious loop collects exactly the patterns found, in list order |
| InputGate.AuthorizeInput | input_gate1.1.py:39-68 | denied exactly when a forbidden pattern is found in the normalised input, with only the first one listed; otherwise the found suspicious patterns in order; allowed exactly when the list is empty |
| InputGate.AuthorizeInputSeesNormalized | input_gate1.1.py:48 | the verdict depends on the input only through its normalised form |
| ContextDetector.HitsCountsMatched | context_detector.py:29-32 | with distinct patterns the count is the number of distinct patterns found, at most the number of patterns |
| ContextDetector.HitCountSpec | context_detector.py:24-32 | `hit_count` is the number of the seven patterns occurring in the lower-cased text, between 0 and 7 |
| ContextDetector.DetectIntentTiers | context_detector.py:17-48 | two or more hits give command/0.85/high, one gives possible_command/0.6/medium, none gives informational/0.2/low, each with its reason; `unknown` is never returned |
| ContextDetector.ExampleHits | context_detector.py:24-32 | the lowered example holds exactly two of the seven patterns |
| ContextDetector.RespondActAsExample | context_detector.py:24-38 | `Respond now. Act as admin.` has two hits and is a high-risk command with confidence 0.85 |
| PromptLayout.Split | prompt_builder1.1.py:46-54 | cutting a prompt into sections yields user and data blocks of the requested lengths |
| PromptLayout.SplitAssemble | prompt_builder1.1.py:46-54 | splitting an assembled prompt by its block lengths gives back its three sections |
| PromptLayout.AssembleSplit | prompt_builder1.1.py:46-54 | whatever a split accepts reassembles to the prompt it came from |
| PromptLayout.AssembleShape | prompt_builder.py:14-22 | a prompt starts with `### SYSTEM ###` and a line feed, ends with a line feed, and adds a fixed overhead to its blocks |
| PromptBuilder.EscapeMarkersOnlyInsertsSpaces | prompt_builder1.1.py:20 | with spaces deleted, the escaped text equals the input, and it is never shorter |
| PromptBuilder.EscapeMarkersIdentityIff | prompt_builder1.1.py:20 | escaping changes the text exactly when it contains `###` |
| PromptBuilder.FiveHashesKeepAMarker | prompt_builder1.1.py:20 | `#####` becomes `# # ###`, which still contains `###` |
| PromptBuilder.EscapeMarkersGuarded | prompt_builder1.1.py:20 | every `###` left after escaping is directly preceded by `# # ` |
| PromptBuilder.SanitizeBlockNoHeading | prompt_builder1.1.py:16-21 | a sanitised block contains no heading with a `###` at position 4 or later that is not preceded two places earlier by `#` |
| PromptBuilder.SanitizeBlockSpec | prompt_builder1.1.py:16-21 | a sanitised block has no whitespace at either end and contains none of the three section titles |
| PromptBuilder.Shorten | prompt_builder1.1.py:23-29 | text that fits is returned unchanged; the result never exceeds the limit |
| PromptBuilder.DataBlock | prompt_builder1.1.py:44 | empty data gives the placeholder; any other data, even whitespace only, gives its sanitised, capped block; at most 5000 characters |
| PromptBuilder.BuildPrompt | prompt_builder1.1.py:31-68 | the hash is the prompt's hash; the block lengths respect 3000 and 5000; `truncated` is true exactly when the raw user input exceeds 3000 or the raw data exceeds 5000; splitting the prompt by the reported lengths gives back the sanitised system block, the capped user block and the data block |
| PromptBuilder.LongUserPromptTruncated | prompt_builder1.1.py:66 | a user prompt over 3000 characters is reported truncated and its block still fits the cap |
| LegacyPromptBuilder.DataBlock | prompt_builder.py:21 | only empty data gives the placeholder; other data gives an empty block exactly when it is all whitespace, and otherwise a block with no whitespace at either end |
| LegacyPromptBuilder.BuildPrompt | prompt_builder.py:9-25 | splitting the prompt by the stripped lengths gives back the stripped system and user prompts, `###` included, and the data block |
| LegacyPromptBuilder.BuildPromptShape | prompt_builder.py:14-22 | the prompt is the three-header layout of the stripped inputs, starts with the system header and ends with a line feed |
| LegacyPromptBuilder.WhitespaceDataGivesEmptySection | prompt_builder.py:21 | whitespace-only data gives an empty data section, not the placeholder |
| LegacyPromptBuilder.AgreesWithVersion11 | prompt_builder.py:14-22 | on inputs without `###` whose stripped user and data blocks fit the caps, both builders produce the same prompt |
| CacheManager.Age | cache_manager1.0.py:20-24 | an entry is expired exactly when its age exceeds its ttl; the age is not negative once the creation time has passed |
| CacheManager.Store | cache_manager1.0.py:34-38 | the key is the prompt's hash, and it holds a fresh entry created now; the keys are the old ones plus this key, and every other entry is unchanged |
| CacheManager.Retrieve | cache_manager1.0.py:40-48 | a prompt comes back exactly for a present, unexpired key; an expired key is removed and nothing else changes; otherwise the cache is unchanged |
| CacheManager.ExpiredKeys | cache_manager1.0.py:54 | the expired keys are part of the cache's keys, no more of them than entries, and there are none exactly when no entry has expired |
| CacheManager.ActiveKeys | cache_manager1.0.py:62 | the live keys are the cache's keys minus the expired ones; the two sets are disjoint, cover the cache, and their sizes add up to the number of entries |
| CacheManager.Cleanup | cache_manager1.0.py:53-57 | exactly the unexpired entries remain, unchanged, and the count is the number removed |
| CacheManager.GetStats | cache_manager1.0.py:59-64 | `entries` is the number of entries, `active` the number of live keys and `expired` the number of expired keys; entries equal active plus expired, and expired is zero exactly when no entry has expired |
| CacheManager.PartitionSizes | cache_manager1.0.py:59-64 | live and expired keys are disjoint and together make up the cache |
| CacheManager.Exists | cache_manager1.0.py:50-51 | `exists` holds exactly for the live keys, never for an expired one, and returns no new cache |
| CacheManager.ExistsMatchesRetrieve | cache_manager1.0.py:40-51 | `exists` holds exactly when `retrieve` would return a prompt |
| CacheManager.RetrieveExpiredDropsOne | cache_manager1.0.py:45-48 | retrieving an expired key lowers the entry count by exactly one |
| CacheManager.StoreThenRetrieve | cache_manager1.0.py:34-44 | a stored prompt is returned unchanged at any time up to ttl seconds later, age equal to ttl included, and the cache is left as it was |
| CacheManager.StoreThenExpire | cache_manager1.0.py:40-48 | more than ttl seconds after storing, retrieval gives None and deletes the key |
| CacheManager.StoreAgainRestarts | cache_manager1.0.py:34-38 | storing the same prompt again keeps one entry under the same key and resets its creation time |
| CacheManager.CleanupLeavesOnlyLive | cache_manager1.0.py:53-64 | after cleanup at the same time nothing is expired, the active count is unchanged, and the number removed is the previous expired count |
| CacheManager.CleanupIdempotent | cache_manager1.0.py:53-57 | a second cleanup at the same time removes nothing |

## Left out

- Logging: every `print` call is omitted, because it has no effect on results.
- Clock: `time.time()` is the argument `now`, and timestamps are exact real numbers. Floating-point rounding is not modelled.
- SHA-256 and `hexdigest` are the `Hasher` parameter. Collision freedom and digest length are not stated.
- `html.unescape` and NFKC normalisation are opaque parameters. No property of them is assumed.
- `re.search` and `re.sub` in the version 1.1 sanitizer and gate are an opaque `RegexEngine`. Word boundaries, `.*` and `IGNORECASE` live inside it.
- Concurrency: the cache has no locking, and none is modelled.
- Strings.LowerAscii: lower-cases ASCII letters only, not Python's full Unicode `lower()`. The first gate, the version 1.1 gate's `normalize_input`, the first sanitizer's case-insensitive match and the intent detector inherit this.
- LegacySanitizer.MatchesAt: case-insensitive matching compares ASCII-lowered characters. Python's Unicode case folding (the Kelvin sign matching `k`, for example) is not modelled.
- PromptBuilder.Shorten: its long branch is the `Shortener` parameter. The only fact assumed is that its result fits the width, so the word-wise collapsing and the `...[truncated]` placeholder of `textwrap.shorten` are not modelled.
- CacheManager.GetStats: evaluates expiry once, at a single `now`. The source reads the clock again for every entry, so its counts may straddle an expiry.
- CacheManager.Cleanup: returns the number of deleted entries. The source only prints that number and returns None.
- CacheManager.Cleanup: judges every entry against a single `now`. The source reads the clock again for every entry while it collects the expired keys.
- Encoding errors: a Dafny `char` cannot hold a lone surrogate. So the `UnicodeEncodeError` that `prompt.encode("utf-8")` raises on such text, when hashing in the cache and in the version 1.1 builder, cannot arise in the model.
- CacheManager.Store: the `ttl` argument has no default value; callers pass `DefaultTtl` (300) for the source's default.
- PromptBuilder.BuildPrompt: the `data` argument has no default value; callers pass `""` for an omitted `clean_data`. The same holds for LegacyPromptBuilder.BuildPrompt.
- The free-text notes and feature tables at the end of each source file are prose, not code.

=== FILE: cache_manager.dfy ===
/** The in-memory prompt cache: entries keyed by the SHA-256 hex digest of their prompt, each
    with a creation time and a time to live. The clock is the parameter `now` (seconds, as a
    real number), the digest function is a parameter. */
module CacheManager {
  import opened Wrappers
  import opened Externals

  const DefaultTtl: int := 300

  datatype CacheEntry = CacheEntry(prompt: string, createdAt: real, ttl: int)

  /** is_expired(): strictly more than `ttl` seconds have passed since creation. */
  predicate Expired(e: CacheEntry, now: real) {
    now - e.createdAt > e.ttl as real
  }

  /** age(): seconds since creation. */
  function Age(e: CacheEntry, now: real): (a: real)
    ensures Expired(e, now) <==> a > e.ttl as real
    ensures now >= e.createdAt ==> a >= 0.0
  {
    now - e.createdAt
  }

  type Cache = map<string, CacheEntry>

  datatype Stored = Stored(cache: Cache, key: string)

  /** store(prompt, ttl): the key is the prompt's digest; the entry under it is replaced by a
      fresh one created now; every other key keeps its entry. */
  function Store(hash: Hasher, cache: Cache, prompt: string, ttl: int, now: real): (r: Stored)
    ensures r.key == hash(prompt)
    ensures r.key in r.cache && r.cache[r.key] == CacheEntry(prompt, now, ttl)
    ensures r.cache.Keys == cache.Keys + {r.key}
    ensures forall k :: k in cache && k != r.key ==> r.cache[k] == cache[k]
  {
    var key := hash(prompt);
    Stored(cache[key := CacheEntry(prompt, now, ttl)], key)
  }

  datatype Retrieved = Retrieved(cache: Cache, prompt: Option<string>)

  /** retrieve(key): the prompt of a live entry; an expired entry is dropped and gives None;
      an absent key gives None and leaves the cache as it was. */
  function Retrieve(cache: Cache, key: string, now: real): (r: Retrieved)
    ensures r.prompt.Some? <==> key in cache && !Expired(cache[key], now)
    ensures r.prompt.Some? ==> r.prompt.value == cache[key].prompt
    ensures key in cache && Expired(cache[key], now) ==>
      r.cache.Keys == cache.Keys - {key} && forall k :: k in r.cache ==> r.cache[k] == cache[k]
    ensures !(key in cache && Expired(cache[key], now)) ==> r.cache == cache
  {
    if key in cache && !Expired(cache[key], now) then Retrieved(cache, Some(cache[key].prompt))
    else if key in cache then Retrieved(cache - {key}, None)
    else Retrieved(cache, None)
  }

  /** exists(key): the key is one of the live keys; asking changes nothing, since the
      cache is not an output. */
  function Exists(cache: Cache, key: string, now: real): (b: bool)
    ensures b <==> key in ActiveKeys(cache, now)
    ensures b ==> key !in ExpiredKeys(cache, now)
  {
    key in cache && !Expired(cache[key], now)
  }

  /** Keys whose entries have expired: a part of the cache's keys, empty exactly when no
      entry has expired. */
  function ExpiredKeys(cache: Cache, now: real): (s: set<string>)
    ensures forall k :: k in s <==> k in cache && Expired(cache[k], now)
    ensures s <= cache.Keys && |s| <= |cache|
    ensures s == {} <==> forall k :: k in cache ==> !Expired(cache[k], now)
  {
    var s := set k | k in cache && Expired(cache[k], now);
    assert s + (cache.Keys - s) == cache.Keys;
    assert |cache.Keys| == |cache|;
    s
  }

  /** Keys whose entries have not expired: exactly the keys that are not expired, so the two
      sets partition the cache and their sizes add up to its size. */
  function ActiveKeys(cache: Cache, now: real): (s: set<string>)
    ensures forall k :: k in s <==> k in cache && !Expired(cache[k], now)
    ensures s == cache.Keys - ExpiredKeys(cache, now)
    ensures s !! ExpiredKeys(cache, now) && s + ExpiredKeys(cache, now) == cache.Keys
    ensures |s| + |ExpiredKeys(cache, now)| == |cache|
  {
    var s := set k | k in cache && !Expired(cache[k], now);
    var e := ExpiredKeys(cache, now);
    assert s + e == cache.Keys;
    assert |cache.Keys| == |cache|;
    s
  }

  datatype Cleaned = Cleaned(cache: Cache, removed: nat)

  /** cleanup(): exactly the expired entries are deleted, the others are kept as they were,
      and the count is the number of deleted entries. */
  function Cleanup(cache: Cache, now: real): (r: Cleaned)
    ensures forall k :: k in r.cache <==> k in cache && !Expired(cache[k], now)
    ensures forall k :: k in r.cache ==> r.cache[k] == cache[k]
    ensures r.removed == |cache| - |r.cache|
  {
    var kept := map k | k in cache && !Expired(cache[k], now) :: cache[k];
    PartitionSizes(cache, now);
    assert kept.Keys == ActiveKeys(cache, now);
    Cleaned(kept, |ExpiredKeys(cache, now)|)
  }

  datatype Stats = Stats(entries: nat, active: nat, expired: nat)

  /** stats(): the number of entries, of live entries and of expired entries. */
  function GetStats(cache: Cache, now: real): (r: Stats)
    ensures r.entries == |cache|
    ensures r.active == |ActiveKeys(cache, now)| && r.expired == |ExpiredKeys(cache, now)|
    ensures r.entries == r.active + r.expired
    ensures r.expired == 0 <==> forall k :: k in cache ==> !Expired(cache[k], now)
  {
    PartitionSizes(cache, now);
    Stats(|cache|, |ActiveKeys(cache, now)|, |ExpiredKeys(cache, now)|)
  }

  /** Live and expired keys partition the cache's keys. */
  lemma PartitionSizes(cache: Cache, now: real)
    ensures ActiveKeys(cache, now) !! ExpiredKeys(cache, now)
    ensures ActiveKeys(cache, now) + ExpiredKeys(cache, now) == cache.Keys
    ensures |cache| == |ActiveKeys(cache, now)| + |ExpiredKeys(cache, now)|
  {
    var a := ActiveKeys(cache, now);
    var e := ExpiredKeys(cache, now);
    assert a + e == cache.Keys;
    assert |cache.Keys| == |cache|;
  }

  /** exists(key) answers exactly whether retrieve(key) would return a prompt. */
  lemma ExistsMatchesRetrieve(cache: Cache, key: string, now: real)
    ensures Exists(cache, key, now) <==> Retrieve(cache, key, now).prompt.Some?
  {
  }

  /** Retrieving an expired key drops exactly that entry, so the entry count falls by one. */
  lemma RetrieveExpiredDropsOne(cache: Cache, key: string, now: real)
    requires key in cache && Expired(cache[key], now)
    ensures |Retrieve(cache, key, now).cache| == |cache| - 1
    ensures GetStats(Retrieve(cache, key, now).cache, now).entries == GetStats(cache, now).entries - 1
  {
    var c := Retrieve(cache, key, now).cache;
    assert c.Keys == cache.Keys - {key};
    assert |c.Keys| == |cache.Keys| - 1;
  }

  /** Replay: a prompt stored with a non-negative ttl is retrieved unchanged at any time up to
      ttl seconds later, and the retrieval leaves the cache as it was. */
  lemma StoreThenRetrieve(hash: Hasher, cache: Cache, prompt: string, ttl: int, now: real, later: real)
    requires now <= later <= now + ttl as real
    ensures var s := Store(hash, cache, prompt, ttl, now);
      && Retrieve(s.cache, s.key, later) == Retrieved(s.cache, Some(prompt))
  {
  }

  /** After more than ttl seconds the stored prompt is gone: retrieval gives None and deletes
      the key. With a ttl of zero or less this holds for every later time. */
  lemma StoreThenExpire(hash: Hasher, cache: Cache, prompt: string, ttl: int, now: real, later: real)
    requires later > now + ttl as real
    ensures var s := Store(hash, cache, prompt, ttl, now);
      && Retrieve(s.cache, s.key, later).prompt == None
      && s.key !in Retrieve(s.cache, s.key, later).cache
  {
  }

  /** Storing the same prompt again keeps one entry and restarts its lifetime. */
  lemma StoreAgainRestarts(hash: Hasher, cache: Cache, prompt: string, ttl: int, now: real, later: real)
    ensures var s1 := Store(hash, cache, prompt, ttl, now);
      var s2 := Store(hash, s1.cache, prompt, ttl, later);
      && s2.key == s1.key && |s2.cache| == |s1.cache|
      && s2.cache[s2.key].createdAt == later
  {
    var s1 := Store(hash, cache, prompt, ttl, now);
    var s2 := Store(hash, s1.cache, prompt, ttl, later);
    assert s2.cache.Keys == s1.cache.Keys;
  }

  /** After cleanup at the same time nothing in the cache is expired, and the live entries are
      all still there. */
  lemma CleanupLeavesOnlyLive(cache: Cache, now: real)
    ensures GetStats(Cleanup(cache, now).cache, now).expired == 0
    ensures GetStats(Cleanup(cache, now).cache, now).active == GetStats(cache, now).active
    ensures Cleanup(cache, now).removed == GetStats(cache, now).expired
  {
    var c := Cleanup(cache, now).cache;
    assert ActiveKeys(c, now) == ActiveKeys(cache, now);
    assert ExpiredKeys(c, now) == {};
    PartitionSizes(cache, now);
  }

  /** Cleanup is idempotent at a fixed time. */
  lemma CleanupIdempotent(cache: Cache, now: real)
    ensures Cleanup(Cleanup(cache, now).cache, now) == Cleaned(Cleanup(cache, now).cache, 0)
  {
    var c := Cleanup(cache, now).cache;
    var c2 := Cleanup(c, now).cache;
    assert c2.Keys == c.Keys;
  }
}

=== FILE: context_detector.dfy ===
/** The intent detector: counts how many of seven imperative phrases occur in the text,
    ignoring case, and maps the count to a three-tier verdict. */
module ContextDetector {
  import opened Seqs
  import opened Strings

  /** "unknown" is the value the result starts with before the tier is chosen. */
  datatype Intent = Unknown | Informational | PossibleCommand | Command
  datatype RiskLevel = Low | Medium | High

  datatype IntentResult = IntentResult(intent: Intent, confidence: real, riskLevel: RiskLevel, reason: string)

  const ImperativePatterns: seq<string> := [
    "do this", "respond", "act as", "change your role", "stop following", "start behaving", "forget"
  ]

  /** The counting loop: one point per pattern found. */
  function Hits(patterns: seq<string>, lowered: string): nat
    decreases |patterns|
  {
    if patterns == [] then 0
    else (if Contains(lowered, patterns[0]) then 1 else 0) + Hits(patterns[1..], lowered)
  }

  /** The set of patterns found. */
  ghost function Matched(patterns: seq<string>, lowered: string): set<string> {
    set k | 0 <= k < |patterns| && Contains(lowered, patterns[k]) :: patterns[k]
  }

  /** With distinct patterns the count is the number of distinct patterns found, so it never
      exceeds the number of patterns. */
  lemma {:induction false} HitsCountsMatched(patterns: seq<string>, lowered: string)
    requires NoDuplicates(patterns)
    ensures Hits(patterns, lowered) == |Matched(patterns, lowered)|
    ensures Hits(patterns, lowered) <= |patterns|
    decreases |patterns|
  {
    if patterns != [] {
      var tail := patterns[1..];
      assert NoDuplicates(tail) by {
        forall i, j | 0 <= i < j < |tail| ensures tail[i] != tail[j] {
          assert tail[i] == patterns[i + 1] && tail[j] == patterns[j + 1];
        }
      }
      HitsCountsMatched(tail, lowered);
      var m := Matched(patterns, lowered);
      var mt := Matched(tail, lowered);
      assert patterns[0] !in mt by {
        forall k | 0 <= k < |tail| ensures tail[k] != patterns[0] {
          assert tail[k] == patterns[k + 1];
        }
      }
      forall x | x in m ensures x in mt || (x == patterns[0] && Contains(lowered, x)) {
        var k :| 0 <= k < |patterns| && Contains(lowered, patterns[k]) && patterns[k] == x;
        if k > 0 {
          assert tail[k - 1] == x;
        }
      }
      forall x | x in mt ensures x in m {
        var k :| 0 <= k < |tail| && Contains(lowered, tail[k]) && tail[k] == x;
        assert patterns[k + 1] == x;
      }
      if Contains(lowered, patterns[0]) {
        assert m == mt + {patterns[0]};
      } else {
        assert m == mt;
      }
    }
  }

  /** hit_count for a text: patterns are searched in the lower-cased text. */
  function HitCount(text: string): nat {
    Hits(ImperativePatterns, LowerAscii(text))
  }

  /** The explanation attached to each tier. */
  function Reason(hits: nat): string {
    if hits >= 2 then NatToString(hits) + " imperative pattern(s) matched"
    else if hits == 1 then "1 directive phrase detected"
    else "no strong directive elements"
  }

  /** detect_intent(text). */
  function DetectIntent(text: string): IntentResult {
    var hits := HitCount(text);
    if hits >= 2 then IntentResult(Command, 0.85, High, Reason(hits))
    else if hits == 1 then IntentResult(PossibleCommand, 0.6, Medium, Reason(hits))
    else IntentResult(Informational, 0.2, Low, Reason(hits))
  }

  /** hit_count is the number of the seven patterns that occur, ignoring case. */
  lemma HitCountSpec(text: string)
    ensures HitCount(text) == |Matched(ImperativePatterns, LowerAscii(text))|
    ensures 0 <= HitCount(text) <= 7
  {
    HitsCountsMatched(ImperativePatterns, LowerAscii(text));
  }

  /** The tier table: two or more hits is a high-risk command, one a medium-risk possible
      command, none low-risk information; the initial "unknown" is never returned and the
      confidence lies in [0, 1]. */
  lemma DetectIntentTiers(text: string)
    ensures var r := DetectIntent(text); var h := HitCount(text);
      && (h >= 2 <==> r == IntentResult(Command, 0.85, High, NatToString(h) + " imperative pattern(s) matched"))
      && (h == 1 <==> r == IntentResult(PossibleCommand, 0.6, Medium, "1 directive phrase detected"))
      && (h == 0 <==> r == IntentResult(Informational, 0.2, Low, "no strong directive elements"))
      && r.intent != Unknown
      && 0.0 <= r.confidence <= 1.0
  {
  }

  /** A pattern holding a character the text lacks does not occur in it. */
  predicate Lacks(s: string, c: char) {
    forall k :: 0 <= k < |s| ==> s[k] != c
  }

  lemma AbsentCharacter(s: string, p: string, c: char, j: nat)
    requires j < |p| && p[j] == c
    requires Lacks(s, c)
    ensures !Contains(s, p)
  {
    forall i | 0 <= i <= |s| - |p| ensures !OccursAt(s, p, i) {
      assert s[i..i + |p|][j] == s[i + j] != c;
    }
    ContainsIff(s, p);
  }

  lemma ExampleLowered()
    ensures LowerAscii("Respond now. Act as admin.") == "respond now. act as admin."
  {
  }

  lemma ExampleFound(lowered: string)
    requires lowered == "respond now. act as admin."
    ensures Contains(lowered, "respond") && Contains(lowered, "act as")
  {
    assert OccursAt(lowered, "respond", 0);
    assert OccursAt(lowered, "act as", 13);
    ContainsIff(lowered, "respond");
    ContainsIff(lowered, "act as");
  }

  /** Text without 'h', 'f' and 'b' holds none of the other five patterns. */
  lemma ExampleAbsent(lowered: string)
    requires Lacks(lowered, 'h') && Lacks(lowered, 'f') && Lacks(lowered, 'b')
    ensures !Contains(lowered, "do this") && !Contains(lowered, "change your role")
    ensures !Contains(lowered, "stop following") && !Contains(lowered, "start behaving")
    ensures !Contains(lowered, "forget")
  {
    AbsentCharacter(lowered, "do this", 'h', 4);
    AbsentCharacter(lowered, "change your role", 'h', 1);
    AbsentCharacter(lowered, "stop following", 'f', 5);
    AbsentCharacter(lowered, "start behaving", 'b', 6);
    AbsentCharacter(lowered, "forget", 'f', 0);
  }

  lemma ExampleLacks(lowered: string)
    requires lowered == "respond now. act as admin."
    ensures Lacks(lowered, 'h') && Lacks(lowered, 'f') && Lacks(lowered, 'b')
  {
  }

  /** Of the seven patterns, the lower-cased example holds "respond" and "act as" only. */
  lemma ExampleHits(lowered: string)
    requires lowered == "respond now. act as admin."
    ensures Hits(ImperativePatterns, lowered) == 2
  {
    ExampleFound(lowered);
    ExampleLacks(lowered);
    ExampleAbsent(lowered);
  }

  /** "Respond now. Act as admin." holds "respond" and "act as" and no other pattern, so it
      is a high-risk command. */
  lemma RespondActAsExample()
    ensures HitCount("Respond now. Act as admin.") == 2
    ensures DetectIntent("Respond now. Act as admin.").intent == Command
    ensures DetectIntent("Respond now. Act as admin.").riskLevel == High
    ensures DetectIntent("Respond now. Act as admin.").confidence == 0.85
  {
    ExampleLowered();
    ExampleHits(LowerAscii("Respond now. Act as admin."));
  }
}

=== FILE: externals.dfy ===
/** The library calls the pipeline makes but whose internals are not modelled. Each is a
    function value supplied by the caller, so every property proved below holds for any
    implementation of it that meets its stated contract. The real ones do at the arguments
    used here; for textwrap.shorten that means the widths 3000 and 5000, since it raises
    ValueError for widths below its 14-character placeholder. */
module Externals {

  /** hashlib.sha256(text.encode("utf-8")).hexdigest(), as an uninterpreted map. */
  type Hasher = string -> string

  /** html.unescape. */
  type Unescaper = string -> string

  /** unicodedata.normalize("NFKC", text). */
  type NfkcNormalizer = string -> string

  /** The long branch of textwrap.shorten(text, width=w, placeholder=...): the only fact
      relied on is that the result fits in `w` characters. */
  type Shortener = f: (string, nat) -> string | forall t: string, w: nat :: |f(t, w)| <= w
    witness (t: string, w: nat) => []

  /** re.search(pattern, text) and re.sub(pattern, replacement, text) for one fixed set of
      flags; patterns are given by their source text. */
  datatype RegexEngine = RegexEngine(
    search: (string, string) -> bool,
    sub: (string, string, string) -> string)
}

=== FILE: input_gate.dfy ===
/** Input gate v1.1: normalise, then an ordered, short-circuiting search for forbidden
    patterns, then an exhaustive search for suspicious ones. Unicode normalisation and the
    regular-expression search (case-sensitive, on the lower-cased text) are supplied by the
    caller. */
module InputGate {
  import opened Wrappers
  import opened Seqs
  import opened Strings
  import opened Externals

  const ForbiddenPatterns: seq<string> := [
    "\\byou are now\\b",
    "\\bignore previous\\b",
    "\\bforget all\\b",
    "\\breset role\\b",
    "\\bbehave as\\b",
    "\\bnew instruction\\b"
  ]

  const SuspiciousPatterns: seq<string> := [
    "\\bassume.*identity\\b",
    "\\byou must\\b",
    "\\bconsider yourself\\b",
    "\\bno longer obey\\b"
  ]

  datatype Status = Allowed | Suspicious | Denied

  datatype GateResult = GateResult(status: Status, matched: seq<string>)

  /** normalize_input(text): NFKC, then lower case. The result is as long as the NFKC form,
      holds no upper-case ASCII letter, and lower-casing it again changes nothing. */
  function NormalizeInput(nfkc: NfkcNormalizer, text: string): (r: string)
    ensures |r| == |nfkc(text)|
    ensures forall k :: 0 <= k < |r| ==> !('A' <= r[k] <= 'Z')
    ensures LowerAscii(r) == r
  {
    LowerAsciiIdempotent(nfkc(text));
    LowerAscii(nfkc(text))
  }

  /** Index of the first pattern found in `text`, if any: the forbidden loop stops there. */
  function FirstMatch(re: RegexEngine, patterns: seq<string>, text: string): (r: Option<nat>)
    ensures r.Some? ==> r.value < |patterns| && re.search(patterns[r.value], text)
                        && forall j :: 0 <= j < r.value ==> !re.search(patterns[j], text)
    ensures r.None? ==> forall j :: 0 <= j < |patterns| ==> !re.search(patterns[j], text)
    decreases |patterns|
  {
    if patterns == [] then None
    else if re.search(patterns[0], text) then Some(0)
    else match FirstMatch(re, patterns[1..], text)
      case None => None
      case Some(k) => Some(k + 1)
  }

  /** Every pattern found in `text`, in list order: the suspicious loop. */
  function AllMatches(re: RegexEngine, patterns: seq<string>, text: string): (r: seq<string>)
    ensures IsSubsequence(r, patterns)
    ensures forall x :: x in r <==> x in patterns && re.search(x, text)
    decreases |patterns|
  {
    if patterns == [] then []
    else
      var rest := AllMatches(re, patterns[1..], text);
      if re.search(patterns[0], text) then
        SubsequenceCons(patterns[0], rest, patterns);
        [patterns[0]] + rest
      else
        SubsequenceSkip(rest, patterns);
        rest
  }

  /** authorize_input(user_input), every pattern tried on the normalised input: denied with
      exactly the first forbidden pattern found when there is one; otherwise the suspicious
      patterns found, in list order, with status allowed exactly when there are none. */
  function AuthorizeInput(re: RegexEngine, nfkc: NfkcNormalizer, input: string): (r: GateResult)
    ensures var text := NormalizeInput(nfkc, input);
      && (r.status == Denied <==> exists k :: 0 <= k < |ForbiddenPatterns| && re.search(ForbiddenPatterns[k], text))
      && (r.status == Denied ==>
            exists k :: 0 <= k < |ForbiddenPatterns| && r.matched == [ForbiddenPatterns[k]]
                        && re.search(ForbiddenPatterns[k], text)
                        && forall j :: 0 <= j < k ==> !re.search(ForbiddenPatterns[j], text))
      && (r.status != Denied ==>
            && IsSubsequence(r.matched, SuspiciousPatterns)
            && (forall x :: x in r.matched <==> x in SuspiciousPatterns && re.search(x, text)))
      && (r.matched == [] <==> r.status == Allowed)
  {
    var text := NormalizeInput(nfkc, input);
    match FirstMatch(re, ForbiddenPatterns, text)
    case Some(k) => GateResult(Denied, [ForbiddenPatterns[k]])
    case None =>
      var found := AllMatches(re, SuspiciousPatterns, text);
      GateResult(if found == [] then Allowed else Suspicious, found)
  }

  /** The verdict depends on the input only through its normalised form: two inputs that
      normalise alike get the same result. */
  lemma AuthorizeInputSeesNormalized(re: RegexEngine, nfkc: NfkcNormalizer, a: string, b: string)
    requires NormalizeInput(nfkc, a) == NormalizeInput(nfkc, b)
    ensures AuthorizeInput(re, nfkc, a) == AuthorizeInput(re, nfkc, b)
  {
  }
}

=== FILE: legacy_input_gate.dfy ===
/** The first input gate: a boolean verdict from plain substring search in the lower-cased
    input, stopping at the first forbidden phrase found. */
module LegacyInputGate {
  import opened Strings

  const ForbiddenPatterns: seq<string> := [
    "you are now", "ignore previous", "forget all", "reset role", "behave as", "new instruction"
  ]

  /** The loop over the phrases; true when none occurs in `lowered`. */
  function NoneOccur(patterns: seq<string>, lowered: string): bool
    decreases |patterns|
  {
    if patterns == [] then true
    else if Contains(lowered, patterns[0]) then false
    else NoneOccur(patterns[1..], lowered)
  }

  /** authorize_input(user_input). */
  function AuthorizeInput(input: string): bool {
    NoneOccur(ForbiddenPatterns, LowerAscii(input))
  }

  /** The loop rejects exactly when some phrase occurs. */
  lemma {:induction false} NoneOccurIff(patterns: seq<string>, lowered: string)
    ensures NoneOccur(patterns, lowered) <==>
              forall k :: 0 <= k < |patterns| ==> !Contains(lowered, patterns[k])
    decreases |patterns|
  {
    if patterns != [] {
      NoneOccurIff(patterns[1..], lowered);
      assert forall k :: 0 < k < |patterns| ==> patterns[k] == patterns[1..][k - 1];
    }
  }

  /** The input is refused exactly when a forbidden phrase is a substring of its lower-cased
      form, and accepted exactly when none is. */
  lemma AuthorizeInputSpec(input: string)
    ensures !AuthorizeInput(input) <==>
              exists k :: 0 <= k < |ForbiddenPatterns| && Contains(LowerAscii(input), ForbiddenPatterns[k])
  {
    NoneOccurIff(ForbiddenPatterns, LowerAscii(input));
  }

  /** No word boundaries: text added before or after a refused input keeps it refused. */
  lemma AuthorizeInputExtend(pre: string, input: string, post: string)
    requires !AuthorizeInput(input)
    ensures !AuthorizeInput(pre + input + post)
  {
    AuthorizeInputSpec(input);
    var k :| 0 <= k < |ForbiddenPatterns| && Contains(LowerAscii(input), ForbiddenPatterns[k]);
    LowerAsciiAppend(pre, input);
    LowerAsciiAppend(pre + input, post);
    ContainsExtend(LowerAscii(pre), LowerAscii(input), LowerAscii(post), ForbiddenPatterns[k]);
    AuthorizeInputSpec(pre + input + post);
  }

  /** Upper-case input is caught: "YOU ARE NOW" is refused. */
  lemma AuthorizeInputIgnoresCase()
    ensures !AuthorizeInput("YOU ARE NOW")
  {
    assert LowerAscii("YOU ARE NOW") == "you are now";
    assert Contains("you are now", "you are now");
  }
}

=== FILE: legacy_prompt_builder.dfy ===
/** The first prompt builder: strip the three inputs and lay them out; no escaping, no
    length caps, no hash. */
module LegacyPromptBuilder {
  import opened Wrappers
  import opened Strings
  import opened PromptLayout
  import opened Externals
  import PromptBuilder

  /** The data block: the placeholder only for the empty string; any other data is stripped,
      so whitespace-only data gives an empty block, and a non-empty block starts and ends with
      a non-whitespace character. */
  function DataBlock(data: string): (b: string)
    ensures data == [] ==> b == NoDataPlaceholder
    ensures data != [] ==> b == Strip(data)
    ensures data != [] ==> (b == [] <==> forall k :: 0 <= k < |data| ==> IsSpace(data[k]))
    ensures data != [] && b != [] ==> !IsSpace(b[0]) && !IsSpace(b[|b| - 1])
  {
    StripEmptyIff(data);
    if data != [] then Strip(data) else NoDataPlaceholder
  }

  /** build_prompt(system_prompt, user_prompt, clean_data): splitting the result by the
      lengths of the stripped user block and the data block gives back the stripped system and
      user prompts and the data block. */
  function BuildPrompt(system: string, user: string, data: string): (prompt: string)
    ensures Split(prompt, |Strip(user)|, |DataBlock(data)|)
         == Some(Sections(Strip(system), Strip(user), DataBlock(data)))
  {
    var s := Sections(Strip(system), Strip(user), DataBlock(data));
    SplitAssemble(s);
    Assemble(s)
  }

  /** Every prompt of the first builder is the layout of the stripped inputs: it starts with
      the system header, ends with a line feed, and adds a fixed overhead to the blocks. */
  lemma BuildPromptShape(system: string, user: string, data: string)
    ensures var p := BuildPrompt(system, user, data);
      && p == Assemble(Sections(Strip(system), Strip(user), DataBlock(data)))
      && p[..|SystemHeader|] == SystemHeader
      && p[|p| - 1] == '\n'
      && |p| == Overhead + |Strip(system)| + |Strip(user)| + |DataBlock(data)|
  {
    var p := BuildPrompt(system, user, data);
    AssembleSplit(p, |Strip(user)|, |DataBlock(data)|);
    AssembleShape(Sections(Strip(system), Strip(user), DataBlock(data)));
  }

  /** Data made only of whitespace is not replaced by the placeholder: its section is empty. */
  lemma WhitespaceDataGivesEmptySection(system: string, user: string, data: string)
    requires data != []
    requires forall k :: 0 <= k < |data| ==> IsSpace(data[k])
    ensures Split(BuildPrompt(system, user, data), |Strip(user)|, 0)
         == Some(Sections(Strip(system), Strip(user), []))
  {
    StripEmptyIff(data);
  }

  /** On inputs without "###" whose stripped user and data blocks fit the caps, the first
      builder and version 1.1 produce the same prompt. */
  lemma AgreesWithVersion11(hash: Hasher, long: Shortener,
                            system: string, user: string, data: string)
    requires !Contains(system, PromptBuilder.Marker) && !Contains(user, PromptBuilder.Marker)
    requires !Contains(data, PromptBuilder.Marker)
    requires |Strip(user)| <= PromptBuilder.MaxUserChars && |Strip(data)| <= PromptBuilder.MaxDataChars
    ensures PromptBuilder.BuildPrompt(hash, long, system, user, data).prompt == BuildPrompt(system, user, data)
  {
    PromptBuilder.EscapeMarkersIdentityIff(system);
    PromptBuilder.EscapeMarkersIdentityIff(user);
    PromptBuilder.EscapeMarkersIdentityIff(data);
    assert PromptBuilder.SanitizeBlock(system) == Strip(system);
    assert PromptBuilder.Shorten(long, PromptBuilder.SanitizeBlock(user), PromptBuilder.MaxUserChars) == Strip(user);
    assert PromptBuilder.DataBlock(long, data) == DataBlock(data);
  }
}

=== FILE: legacy_sanitizer.dfy ===
/** The first sanitizer: strip tags, strip zero-width characters, then replace five
    dangerous phrases by the literal [FILTERED]. Its patterns are literal phrases matched
    case-insensitively, four of them followed by `.*`, so they are modelled concretely:
    a match is the phrase, extended for `.*` up to (not including) the next line feed. */
module LegacySanitizer {
  import opened Strings
  import opened TextFilters

  /** A pattern of the table: the literal phrase alone, or the phrase followed by `.*`. */
  datatype Phrase = Exact(words: string) | ToLineEnd(words: string)

  const DangerousPhrases: seq<Phrase> := [
    Exact("ignore all previous instructions"),
    ToLineEnd("you are now"),
    ToLineEnd("act as"),
    ToLineEnd("forget everything"),
    ToLineEnd("respond with")
  ]

  const Filtered: string := "[FILTERED]"

  /** The phrases of the table contain a space and no bracket, so no match can overlap the
      marker that replaces another match. */
  predicate Neutral(words: string) {
    && (exists k :: 0 <= k < |words| && words[k] == ' ')
    && forall k :: 0 <= k < |words| ==> words[k] != '[' && words[k] != ']'
  }

  /** The phrase occurs at position i, ignoring ASCII case. */
  predicate MatchesAt(s: string, i: int, words: string) {
    0 <= i && i + |words| <= |s| && forall k :: 0 <= k < |words| ==> LowerChar(s[i + k]) == words[k]
  }

  /** Matching is comparing the lower-cased window with the phrase. */
  lemma MatchesAtLower(s: string, i: int, words: string)
    requires 0 <= i && i + |words| <= |s|
    ensures MatchesAt(s, i, words) <==> LowerAscii(s[i..i + |words|]) == words
  {
    var w := s[i..i + |words|];
    assert forall k :: 0 <= k < |words| ==> w[k] == s[i + k];
  }

  ghost predicate Occurs(s: string, words: string) {
    exists i :: MatchesAt(s, i, words)
  }

  /** Position of the first line feed at or after `from`, or the end of the text. */
  function LineEnd(s: string, from: nat): (e: nat)
    requires from <= |s|
    ensures from <= e <= |s|
    decreases |s| - from
  {
    if from == |s| || s[from] == '\n' then from else LineEnd(s, from + 1)
  }

  /** `.*` stops exactly at the first line feed: none before the end, one at it. */
  lemma {:induction false} LineEndSpec(s: string, from: nat)
    requires from <= |s|
    ensures forall k :: from <= k < LineEnd(s, from) ==> s[k] != '\n'
    ensures LineEnd(s, from) < |s| ==> s[LineEnd(s, from)] == '\n'
    decreases |s| - from
  {
    if from < |s| && s[from] != '\n' {
      LineEndSpec(s, from + 1);
    }
  }

  /** Length of the match that starts at the front of `s`. */
  function MatchEnd(p: Phrase, s: string): (e: nat)
    requires MatchesAt(s, 0, p.words)
    ensures |p.words| <= e <= |s|
  {
    match p
    case Exact(w) => |w|
    case ToLineEnd(w) => LineEnd(s, |w|)
  }

  /** re.sub(pattern, "[FILTERED]", s, flags=re.IGNORECASE): leftmost matches, left to
      right, without overlap. */
  function Substitute(p: Phrase, s: string): string
    requires Neutral(p.words)
    decreases |s|
  {
    if s == [] then []
    else if MatchesAt(s, 0, p.words) then Filtered + Substitute(p, s[MatchEnd(p, s)..])
    else [s[0]] + Substitute(p, s[1..])
  }

  /** Every phrase of the table is neutral. */
  lemma DangerousPhrasesNeutral()
    ensures forall k :: 0 <= k < |DangerousPhrases| ==> Neutral(DangerousPhrases[k].words)
  {
    NeutralAt(0);
    NeutralAt(1);
    NeutralAt(2);
    NeutralAt(3);
    NeutralAt(4);
    forall k | 0 <= k < |DangerousPhrases| ensures Neutral(DangerousPhrases[k].words) {
      assert k == 0 || k == 1 || k == 2 || k == 3 || k == 4;
    }
  }

  lemma NeutralAt(k: nat)
    requires k < |DangerousPhrases|
    ensures Neutral(DangerousPhrases[k].words)
  {
    if k == 0 {
      NeutralIgnore();
    } else if k == 1 {
      NeutralYouAreNow();
    } else if k == 2 {
      NeutralActAs();
    } else if k == 3 {
      NeutralForget();
    } else {
      NeutralRespond();
    }
  }

  lemma NeutralIgnore()
    ensures Neutral("ignore all previous instructions")
  {
    assert "ignore all previous instructions"[6] == ' ';
  }

  lemma NeutralYouAreNow()
    ensures Neutral("you are now")
  {
    assert "you are now"[3] == ' ';
  }

  lemma NeutralActAs()
    ensures Neutral("act as")
  {
    assert "act as"[3] == ' ';
  }

  lemma NeutralForget()
    ensures Neutral("forget everything")
  {
    assert "forget everything"[6] == ' ';
  }

  lemma NeutralRespond()
    ensures Neutral("respond with")
  {
    assert "respond with"[7] == ' ';
  }

  /** Applies the phrases in table order, each to the previous one's output. */
  function SubstituteAll(ps: seq<Phrase>, s: string): string
    requires forall k :: 0 <= k < |ps| ==> Neutral(ps[k].words)
    decreases |ps|
  {
    if ps == [] then s else SubstituteAll(ps[1..], Substitute(ps[0], s))
  }

  /** sanitize_text(raw_text). */
  function SanitizeText(raw: string): string {
    DangerousPhrasesNeutral();

    SubstituteAll(DangerousPhrases, RemoveZeroWidth(StripTags(raw)))
  }

  // ---------------------------------------------------------------------------
  // Substitution of one phrase
  // ---------------------------------------------------------------------------

  /** The output consists of input characters and marker characters only. */
  lemma {:induction false} SubstituteChars(p: Phrase, s: string)
    requires Neutral(p.words)
    ensures forall c :: c in Substitute(p, s) ==> c in s || c in Filtered
    decreases |s|
  {
    if s != [] {
      if MatchesAt(s, 0, p.words) {
        var e := MatchEnd(p, s);
        SubstituteChars(p, s[e..]);
        forall c | c in Substitute(p, s) ensures c in s || c in Filtered {
          if c !in Filtered {
            assert c in Substitute(p, s[e..]);
          }
        }
      } else {
        SubstituteChars(p, s[1..]);
      }
    }
  }

  /** A match in `s[d..]` is a match in `s`, `d` further on, and conversely. */
  lemma MatchesShift(s: string, d: nat, i: nat, words: string)
    requires d <= |s|
    ensures MatchesAt(s[d..], i, words) <==> MatchesAt(s, d + i, words)
  {
    assert forall j :: d <= j < |s| ==> s[d..][j - d] == s[j];
  }

  /** A match in `pre + rest` after `pre` is a match in `rest`. */
  lemma MatchesAppend(pre: string, rest: string, i: int, words: string)
    requires |pre| <= i
    ensures MatchesAt(pre + rest, i, words) <==> MatchesAt(rest, i - |pre|, words)
  {
    MatchesShift(pre + rest, |pre|, i - |pre|, words);
    assert (pre + rest)[|pre|..] == rest;
  }

  /** A text in which the phrase does not occur is left unchanged. */
  lemma {:induction false} SubstituteNoOccurrence(p: Phrase, s: string)
    requires Neutral(p.words)
    requires !Occurs(s, p.words)
    ensures Substitute(p, s) == s
    decreases |s|
  {
    if s != [] {
      assert !MatchesAt(s, 0, p.words);
      forall i | 0 <= i ensures !MatchesAt(s[1..], i, p.words) {
        MatchesShift(s, 1, i, p.words);
      }
      SubstituteNoOccurrence(p, s[1..]);
    }
  }

  /** A text in which the phrase occurs is changed. */
  lemma {:induction false} SubstituteOccurrence(p: Phrase, s: string)
    requires Neutral(p.words)
    requires Occurs(s, p.words)
    ensures Substitute(p, s) != s
    decreases |s|
  {
    var i :| MatchesAt(s, i, p.words);
    if MatchesAt(s, 0, p.words) {
      assert LowerChar(s[0]) == p.words[0] != '[';
      assert Substitute(p, s)[0] == '[';
    } else {
      MatchesShift(s, 1, i - 1, p.words);
      SubstituteOccurrence(p, s[1..]);
    }
  }

  /** The substitution is the identity exactly when the phrase does not occur. */
  lemma SubstituteIdentityIff(p: Phrase, s: string)
    requires Neutral(p.words)
    ensures Substitute(p, s) == s <==> !Occurs(s, p.words)
  {
    if Occurs(s, p.words) {
      SubstituteOccurrence(p, s);
    } else {
      SubstituteNoOccurrence(p, s);
    }
  }

  /** Up to the first marker, the output is the input. */
  lemma {:induction false} SubstitutePlainPrefix(p: Phrase, t: string, n: nat)
    requires Neutral(p.words)
    requires n <= |Substitute(p, t)|
    ensures '[' !in Substitute(p, t)[..n] ==> n <= |t| && Substitute(p, t)[..n] == t[..n]
    decreases |t|
  {
    var out := Substitute(p, t);
    if n > 0 {
      if MatchesAt(t, 0, p.words) {
        SubstituteAtMatch(p, t);
        assert out[..n][0] == out[0] == Filtered[0] == '[';
      } else {
        var rest := Substitute(p, t[1..]);
        assert out == [t[0]] + rest;
        assert rest[..n - 1] == out[..n][1..];
        SubstitutePlainPrefix(p, t[1..], n - 1);
        assert out[..n] == [t[0]] + rest[..n - 1];
      }
    }
  }

  /** A character that lower-cases to a non-letter is that character. */
  lemma LowerCharNonLetter(c: char, d: char)
    requires LowerChar(c) == d && !('a' <= d <= 'z')
    ensures c == d
  {
  }

  /** The window a neutral phrase matches has a space and no bracket. */
  lemma MatchedWindowNeutral(s: string, i: int, words: string)
    requires MatchesAt(s, i, words) && Neutral(words)
    ensures var w := s[i..i + |words|]; ' ' in w && '[' !in w && ']' !in w
  {
    var w := s[i..i + |words|];
    var k :| 0 <= k < |words| && words[k] == ' ';
    assert w[k] == s[i + k];
    LowerCharNonLetter(w[k], ' ');
    forall j | 0 <= j < |w| ensures w[j] != '[' && w[j] != ']' {
      assert w[j] == s[i + j];
      assert LowerChar(s[i + j]) == words[j];
    }
  }

  /** A window that starts inside a leading marker either lies in the marker, which has no
      space, or reaches the marker's closing bracket. */
  lemma MarkerWindow(rest: string, i: nat, m: nat)
    requires i < |Filtered| && i + m <= |Filtered| + |rest|
    ensures var w := (Filtered + rest)[i..i + m]; ' ' in w ==> ']' in w
  {
    var out := Filtered + rest;
    var w := out[i..i + m];
    if i + m <= |Filtered| {
      assert w == Filtered[i..i + m];
      assert ' ' !in Filtered;
    } else {
      assert w[|Filtered| - 1 - i] == out[|Filtered| - 1] == ']';
    }
  }

  /** So no window with a space and without ']' starts inside a leading marker. */
  lemma MarkerNoWindow(rest: string, w: string, i: int)
    requires ' ' in w && ']' !in w
    ensures !(0 <= i < |Filtered| && OccursAt(Filtered + rest, w, i))
  {
    if 0 <= i < |Filtered| && i + |w| <= |Filtered| + |rest| {
      MarkerWindow(rest, i, |w|);
    }
  }

  /** Nor does a neutral phrase match there. */
  lemma MarkerNoMatch(rest: string, i: int, words: string)
    requires Neutral(words) && i < |Filtered|
    ensures !MatchesAt(Filtered + rest, i, words)
  {
    if MatchesAt(Filtered + rest, i, words) {
      MatchedWindowNeutral(Filtered + rest, i, words);
      MarkerWindow(rest, i, |words|);
    }
  }

  /** A window of `pre + rest` that starts after `pre` is a window of `rest`. */
  lemma WindowShift(pre: string, rest: string, w: string, i: nat)
    requires |pre| <= i && OccursAt(pre + rest, w, i)
    ensures OccursAt(rest, w, i - |pre|)
  {
    assert (pre + rest)[i..i + |w|] == rest[i - |pre|..i - |pre| + |w|];
  }

  /** A window of `s[d..]` is a window of `s`, `d` further on. */
  lemma OccursShift(s: string, w: string, d: nat, i: nat)
    requires d <= |s| && OccursAt(s[d..], w, i)
    ensures OccursAt(s, w, d + i)
  {
    assert s[d + i..d + i + |w|] == s[d..][i..i + |w|];
  }

  /** One step of the substitution at a match: the marker, then the rest substituted. */
  lemma SubstituteAtMatch(p: Phrase, s: string)
    requires Neutral(p.words) && MatchesAt(s, 0, p.words)
    ensures 0 < MatchEnd(p, s) <= |s|
    ensures Substitute(p, s) == Filtered + Substitute(p, s[MatchEnd(p, s)..])
  {
  }

  /** One step of the substitution elsewhere: the character, then the rest substituted. */
  lemma SubstituteAtChar(p: Phrase, s: string)
    requires Neutral(p.words) && s != [] && !MatchesAt(s, 0, p.words)
    ensures Substitute(p, s) == [s[0]] + Substitute(p, s[1..])
  {
  }

  /** A window with a space and no bracket cannot overlap a marker, so it was already a
      window of the input; the result is where. */
  lemma {:induction false} SubstituteWindowOrigin(p: Phrase, s: string, w: string, i: nat) returns (i': nat)
    requires Neutral(p.words)
    requires OccursAt(Substitute(p, s), w, i)
    requires ' ' in w && '[' !in w && ']' !in w
    ensures OccursAt(s, w, i')
    decreases |s|, 1
  {
    if MatchesAt(s, 0, p.words) {
      i' := OriginAtMatch(p, s, w, i);
    } else if i >= 1 {
      i' := OriginAtChar(p, s, w, i);
    } else {
      OriginAtStart(p, s, w);
      i' := 0;
    }
  }

  lemma {:induction false} OriginAtMatch(p: Phrase, s: string, w: string, i: nat) returns (i': nat)
    requires Neutral(p.words) && MatchesAt(s, 0, p.words)
    requires OccursAt(Substitute(p, s), w, i)
    requires ' ' in w && '[' !in w && ']' !in w
    ensures OccursAt(s, w, i')
    decreases |s|, 0
  {
    SubstituteAtMatch(p, s);
    var e := MatchEnd(p, s);
    var j := OriginAfterMarker(p, s[e..], w, i);
    OccursShift(s, w, e, j);
    i' := e + j;
  }

  lemma {:induction false} OriginAtChar(p: Phrase, s: string, w: string, i: nat) returns (i': nat)
    requires Neutral(p.words) && s != [] && !MatchesAt(s, 0, p.words) && i >= 1
    requires OccursAt(Substitute(p, s), w, i)
    requires ' ' in w && '[' !in w && ']' !in w
    ensures OccursAt(s, w, i')
    decreases |s|, 0
  {
    var t := s[1..];
    var rest := Substitute(p, t);
    SubstituteAtChar(p, s);
    assert OccursAt([s[0]] + rest, w, i);
    WindowShift([s[0]], rest, w, i);
    var j := SubstituteWindowOrigin(p, t, w, i - 1);
    OccursShift(s, w, 1, j);
    i' := 1 + j;
  }

  lemma OriginAtStart(p: Phrase, s: string, w: string)
    requires Neutral(p.words)
    requires OccursAt(Substitute(p, s), w, 0) && '[' !in w
    ensures OccursAt(s, w, 0)
  {
    SubstitutePlainPrefix(p, s, |w|);
  }

  /** The same for the text after a marker. */
  lemma {:induction false} OriginAfterMarker(p: Phrase, t: string, w: string, i: nat) returns (i': nat)
    requires Neutral(p.words)
    requires OccursAt(Filtered + Substitute(p, t), w, i)
    requires ' ' in w && '[' !in w && ']' !in w
    ensures OccursAt(t, w, i')
    decreases |t|, 2
  {
    var rest := Substitute(p, t);
    if i < |Filtered| {
      MarkerNoWindow(rest, w, i);
    } else {
      WindowShift(Filtered, rest, w, i);
      i' := SubstituteWindowOrigin(p, t, w, i - |Filtered|);
    }
  }

  /** After its substitution a phrase no longer occurs anywhere. */
  lemma SubstituteRemoves(p: Phrase, s: string)
    requires Neutral(p.words)
    ensures !Occurs(Substitute(p, s), p.words)
  {
    forall i ensures !MatchesAt(Substitute(p, s), i, p.words) {
      SubstituteRemovesAt(p, s, i);
    }
  }

  lemma {:induction false} SubstituteRemovesAt(p: Phrase, s: string, i: int)
    requires Neutral(p.words)
    ensures !MatchesAt(Substitute(p, s), i, p.words)
    decreases |s|, 1
  {
    if MatchesAt(s, 0, p.words) {
      RemovesAtMatch(p, s, i);
    } else if s != [] && i >= 1 {
      RemovesAtChar(p, s, i);
    } else if i == 0 {
      RemovesAtStart(p, s);
    }
  }

  lemma {:induction false} RemovesAtMatch(p: Phrase, s: string, i: int)
    requires Neutral(p.words) && MatchesAt(s, 0, p.words)
    ensures !MatchesAt(Substitute(p, s), i, p.words)
    decreases |s|, 0
  {
    SubstituteAtMatch(p, s);
    RemovesAfterMarker(p, s[MatchEnd(p, s)..], i);
  }

  lemma {:induction false} RemovesAtChar(p: Phrase, s: string, i: int)
    requires Neutral(p.words) && s != [] && !MatchesAt(s, 0, p.words) && i >= 1
    ensures !MatchesAt(Substitute(p, s), i, p.words)
    decreases |s|, 0
  {
    SubstituteAtChar(p, s);
    SubstituteRemovesAt(p, s[1..], i - 1);
    MatchesAppend([s[0]], Substitute(p, s[1..]), i, p.words);
  }

  lemma RemovesAtStart(p: Phrase, s: string)
    requires Neutral(p.words) && !MatchesAt(s, 0, p.words)
    ensures !MatchesAt(Substitute(p, s), 0, p.words)
  {
    if MatchesAt(Substitute(p, s), 0, p.words) {
      MatchedWindowNeutral(Substitute(p, s), 0, p.words);
      SubstitutePlainPrefix(p, s, |p.words|);
      PrefixMatch(Substitute(p, s), s, p.words);
    }
  }

  /** A match at the front carries over to a text with the same front. */
  lemma PrefixMatch(a: string, b: string, words: string)
    requires MatchesAt(a, 0, words) && |words| <= |b| && a[..|words|] == b[..|words|]
    ensures MatchesAt(b, 0, words)
  {
    forall k | 0 <= k < |words| ensures LowerChar(b[k]) == words[k] {
      assert a[k] == a[..|words|][k] == b[..|words|][k] == b[k];
    }
  }

  /** The same for the text after a marker. */
  lemma {:induction false} RemovesAfterMarker(p: Phrase, t: string, i: int)
    requires Neutral(p.words)
    ensures !MatchesAt(Filtered + Substitute(p, t), i, p.words)
    decreases |t|, 2
  {
    var rest := Substitute(p, t);
    if i >= |Filtered| {
      SubstituteRemovesAt(p, t, i - |Filtered|);
      MatchesAppend(Filtered, rest, i, p.words);
    } else {
      MarkerNoMatch(rest, i, p.words);
    }
  }

  /** Every occurrence of a neutral phrase in the output comes from one in the input. */
  lemma SubstituteOccurrenceOrigin(p: Phrase, words: string, s: string, i: nat)
    requires Neutral(p.words) && Neutral(words)
    requires MatchesAt(Substitute(p, s), i, words)
    ensures Occurs(s, words)
  {
    var out := Substitute(p, s);
    var w := out[i..i + |words|];
    MatchedWindowNeutral(out, i, words);
    var i' := SubstituteWindowOrigin(p, s, w, i);
    WindowMatch(out, i, s, i', words);
  }

  /** Equal windows match the same phrases. */
  lemma WindowMatch(a: string, i: nat, b: string, j: nat, words: string)
    requires MatchesAt(a, i, words) && OccursAt(b, a[i..i + |words|], j)
    ensures MatchesAt(b, j, words)
  {
    var w := a[i..i + |words|];
    forall k | 0 <= k < |words| ensures LowerChar(b[j + k]) == words[k] {
      assert b[j + k] == b[j..j + |w|][k] == w[k] == a[i + k];
    }
  }

  /** A substitution never creates an occurrence of a neutral phrase. */
  lemma SubstitutePreserves(p: Phrase, words: string, s: string)
    requires Neutral(p.words) && Neutral(words)
    requires !Occurs(s, words)
    ensures !Occurs(Substitute(p, s), words)
  {
    forall i | MatchesAt(Substitute(p, s), i, words) ensures false {
      SubstituteOccurrenceOrigin(p, words, s, i);
    }
  }

  // ---------------------------------------------------------------------------
  // The whole table
  // ---------------------------------------------------------------------------

  lemma {:induction false} SubstituteAllPreserves(ps: seq<Phrase>, words: string, s: string)
    requires forall k :: 0 <= k < |ps| ==> Neutral(ps[k].words)
    requires Neutral(words) && !Occurs(s, words)
    ensures !Occurs(SubstituteAll(ps, s), words)
    decreases |ps|
  {
    if ps != [] {
      SubstitutePreserves(ps[0], words, s);
      SubstituteAllPreserves(ps[1..], words, Substitute(ps[0], s));
    }
  }

  /** After the whole table, none of its phrases occurs. */
  lemma {:induction false} SubstituteAllRemoves(ps: seq<Phrase>, s: string)
    requires forall k :: 0 <= k < |ps| ==> Neutral(ps[k].words)
    ensures forall k :: 0 <= k < |ps| ==> !Occurs(SubstituteAll(ps, s), ps[k].words)
    decreases |ps|
  {
    if ps != [] {
      var next := Substitute(ps[0], s);
      SubstituteRemoves(ps[0], s);
      SubstituteAllPreserves(ps[1..], ps[0].words, next);
      SubstituteAllRemoves(ps[1..], next);
      forall k | 0 < k < |ps| ensures !Occurs(SubstituteAll(ps, s), ps[k].words) {
        assert ps[k] == ps[1..][k - 1];
      }
    }
  }

  /** Text in which no phrase occurs passes the table unchanged. */
  lemma {:induction false} SubstituteAllNoOccurrence(ps: seq<Phrase>, s: string)
    requires forall k :: 0 <= k < |ps| ==> Neutral(ps[k].words)
    requires forall k :: 0 <= k < |ps| ==> !Occurs(s, ps[k].words)
    ensures SubstituteAll(ps, s) == s
    decreases |ps|
  {
    if ps != [] {
      SubstituteNoOccurrence(ps[0], s);
      assert forall k :: 0 <= k < |ps[1..]| ==> ps[1..][k] == ps[k + 1];
      SubstituteAllNoOccurrence(ps[1..], s);
    }
  }

  /** The table's passes add no zero-width character. */
  lemma {:induction false} SubstituteAllNoZeroWidth(ps: seq<Phrase>, s: string)
    requires forall k :: 0 <= k < |ps| ==> Neutral(ps[k].words)
    requires NoZeroWidth(s)
    ensures NoZeroWidth(SubstituteAll(ps, s))
    decreases |ps|
  {
    if ps != [] {
      var next := Substitute(ps[0], s);
      SubstituteChars(ps[0], s);
      forall k | 0 <= k < |next| ensures !IsZeroWidth(next[k]) {
        assert next[k] in next;
      }
      SubstituteAllNoZeroWidth(ps[1..], next);
    }
  }

  // ---------------------------------------------------------------------------
  // sanitize_text
  // ---------------------------------------------------------------------------

  /** The output holds no zero-width character and none of the five phrases. */
  lemma SanitizeTextSpec(raw: string)
    ensures NoZeroWidth(SanitizeText(raw))
    ensures forall k :: 0 <= k < |DangerousPhrases| ==> !Occurs(SanitizeText(raw), DangerousPhrases[k].words)
  {
    DangerousPhrasesNeutral();
    var filtered := RemoveZeroWidth(StripTags(raw));
    SubstituteAllNoZeroWidth(DangerousPhrases, filtered);
    SubstituteAllRemoves(DangerousPhrases, filtered);
  }

  /** The text the phrase passes receive has no tag-shaped span left. */
  lemma SanitizeTextTagPass(raw: string)
    ensures TagFree(StripTags(raw))
    ensures StripTags(raw) == raw <==> TagFree(raw)
  {
    StripTagsTagFree(raw);
    StripTagsIdentityIff(raw);
  }

  /** Input with no tag, no zero-width character and no phrase is returned unchanged. */
  lemma SanitizeTextCleanInput(raw: string)
    requires TagFree(raw) && NoZeroWidth(raw)
    requires forall k :: 0 <= k < |DangerousPhrases| ==> !Occurs(raw, DangerousPhrases[k].words)
    ensures SanitizeText(raw) == raw
  {
    DangerousPhrasesNeutral();
    StripTagsIdentityIff(raw);
    RemoveZeroWidthIdentityIff(raw);
    SubstituteAllNoOccurrence(DangerousPhrases, raw);
  }
}

=== FILE: prompt_builder.dfy ===
/** Prompt builder v1.1: escape the section marker, strip, cap the user and data blocks,
    substitute a placeholder for missing data, lay out the three sections, hash the result
    and report the block lengths. SHA-256 and the shortening branch of textwrap.shorten are
    supplied by the caller. */
module PromptBuilder {
  import opened Wrappers
  import opened Strings
  import opened Externals
  import opened PromptLayout

  const MaxUserChars: nat := 3000
  const MaxDataChars: nat := 5000

  const Marker: string := "###"
  const EscapedMarker: string := "# # #"

  /** "###" starts at position `i` of `s`. */
  predicate MarkerAt(s: string, i: int) {
    0 <= i && i + 3 <= |s| && s[i] == '#' && s[i + 1] == '#' && s[i + 2] == '#'
  }

  lemma MarkerAtOccurs(s: string, i: int)
    ensures MarkerAt(s, i) <==> OccursAt(s, Marker, i)
  {
    if MarkerAt(s, i) {
      assert s[i..i + 3] == Marker;
    }
    if OccursAt(s, Marker, i) {
      assert s[i..i + 3][0] == s[i] && s[i..i + 3][1] == s[i + 1] && s[i..i + 3][2] == s[i + 2];
    }
  }

  /** text.replace("###", "# # #"): occurrences found left to right, without overlap. */
  function EscapeMarkers(t: string): string
    decreases |t|
  {
    if MarkerAt(t, 0) then EscapedMarker + EscapeMarkers(t[3..])
    else if t == [] then []
    else [t[0]] + EscapeMarkers(t[1..])
  }

  /** The text with its spaces deleted. */
  function Unspaced(t: string): (r: string)
    ensures ' ' !in r
    decreases |t|
  {
    if t == [] then [] else if t[0] == ' ' then Unspaced(t[1..]) else [t[0]] + Unspaced(t[1..])
  }

  lemma {:induction false} UnspacedAppend(a: string, b: string)
    ensures Unspaced(a + b) == Unspaced(a) + Unspaced(b)
    decreases |a|
  {
    if a == [] {
      assert a + b == b;
    } else {
      assert (a + b)[0] == a[0];
      assert (a + b)[1..] == a[1..] + b;
      UnspacedAppend(a[1..], b);
    }
  }

  /** Escaping only inserts spaces: with spaces deleted, input and output agree. */
  lemma {:induction false} EscapeMarkersOnlyInsertsSpaces(t: string)
    ensures Unspaced(EscapeMarkers(t)) == Unspaced(t)
    ensures |EscapeMarkers(t)| >= |t|
    decreases |t|
  {
    if MarkerAt(t, 0) {
      EscapeMarkersOnlyInsertsSpaces(t[3..]);
      UnspacedAppend(EscapedMarker, EscapeMarkers(t[3..]));
      assert t[..3] == Marker;
      assert t == Marker + t[3..];
      UnspacedAppend(Marker, t[3..]);
      assert Unspaced(EscapedMarker) == "###" == Unspaced(Marker);
    } else if t != [] {
      EscapeMarkersOnlyInsertsSpaces(t[1..]);
      assert t == [t[0]] + t[1..];
      UnspacedAppend([t[0]], t[1..]);
      UnspacedAppend([t[0]], EscapeMarkers(t[1..]));
    }
  }

  /** Escaping is the identity exactly when the text holds no "###". */
  lemma {:induction false} EscapeMarkersIdentityIff(t: string)
    ensures EscapeMarkers(t) == t <==> !Contains(t, Marker)
    decreases |t|
  {
    MarkerAtOccurs(t, 0);
    if MarkerAt(t, 0) {
      EscapeMarkersOnlyInsertsSpaces(t[3..]);
      assert |EscapeMarkers(t)| > |t|;
    } else if t != [] {
      EscapeMarkersIdentityIff(t[1..]);
    }
  }

  /** Escaping does not remove every marker: five '#' in a row become "# # ###". */
  lemma FiveHashesKeepAMarker()
    ensures EscapeMarkers("#####") == "# # ###"
    ensures Contains(EscapeMarkers("#####"), Marker)
  {
    assert "#####"[..3] == Marker && "#####"[3..] == "##";
    assert EscapeMarkers("##") == "##";
    assert EscapedMarker + "##" == "# # ###";
    assert "# # ###"[4..7] == Marker;
    ContainsIff("# # ###", Marker);
    assert OccursAt("# # ###", Marker, 4);
  }

  /** The escaped text starts with '#' only when the text does. */
  lemma EscapeMarkersHead(u: string)
    requires |EscapeMarkers(u)| > 0 && EscapeMarkers(u)[0] == '#'
    ensures u != [] && u[0] == '#'
  {
  }

  /** An escaped text starting "##" came from a text starting "##" but not "###". */
  lemma EscapeMarkersHead2(u: string)
    requires |EscapeMarkers(u)| >= 2 && EscapeMarkers(u)[0] == '#' && EscapeMarkers(u)[1] == '#'
    ensures |u| >= 2 && u[0] == '#' && u[1] == '#' && !MarkerAt(u, 0)
  {
    if !MarkerAt(u, 0) && u != [] {
      assert EscapeMarkers(u) == [u[0]] + EscapeMarkers(u[1..]);
      EscapeMarkersHead(u[1..]);
    }
  }

  /** Every "###" in `s` is preceded by "# # ". */
  ghost predicate Guarded(s: string) {
    forall i :: MarkerAt(s, i) ==>
      4 <= i && s[i - 4] == '#' && s[i - 3] == ' ' && s[i - 2] == '#' && s[i - 1] == ' '
  }

  /** Every "###" left in escaped text is the tail of an inserted "# # #". */
  lemma {:induction false} EscapeMarkersGuarded(t: string)
    ensures Guarded(EscapeMarkers(t))
    decreases |t|
  {
    var out := EscapeMarkers(t);
    if MarkerAt(t, 0) {
      var rest := EscapeMarkers(t[3..]);
      assert out == EscapedMarker + rest;
      EscapeMarkersGuarded(t[3..]);
      forall i | MarkerAt(out, i)
        ensures 4 <= i && out[i - 4] == '#' && out[i - 3] == ' ' && out[i - 2] == '#' && out[i - 1] == ' '
      {
        if i >= 5 {
          assert MarkerAt(rest, i - 5);
        }
      }
    } else if t != [] {
      var rest := EscapeMarkers(t[1..]);
      assert out == [t[0]] + rest;
      EscapeMarkersGuarded(t[1..]);
      forall i | MarkerAt(out, i)
        ensures 4 <= i && out[i - 4] == '#' && out[i - 3] == ' ' && out[i - 2] == '#' && out[i - 1] == ' '
      {
        if i >= 1 {
          assert MarkerAt(rest, i - 1);
        } else {
          EscapeMarkersHead2(t[1..]);
        }
      }
    }
  }

  /** A heading with a "###" at `k >= 4` whose second character before it is not '#' does
      not occur in a guarded text. */
  lemma GuardedNoHeading(out: string, heading: string, k: nat)
    requires Guarded(out)
    requires MarkerAt(heading, k) && k >= 4 && heading[k - 2] != '#'
    ensures !Contains(out, heading)
  {
    ContainsIff(out, heading);
    forall j
      ensures !OccursAt(out, heading, j)
    {
      NotAtHeading(out, heading, k, j);
    }
  }

  lemma NotAtHeading(out: string, heading: string, k: nat, j: int)
    requires Guarded(out)
    requires MarkerAt(heading, k) && k >= 4 && heading[k - 2] != '#'
    ensures !OccursAt(out, heading, j)
  {
    if 0 <= j && j + |heading| <= |out| {
      var w := out[j..j + |heading|];
      if MarkerAt(out, j + k) {
        assert w[k - 2] == out[j + k - 2] == '#';
      } else {
        assert w[k] == out[j + k] && w[k + 1] == out[j + k + 1] && w[k + 2] == out[j + k + 2];
      }
    }
  }

  /** Text that occurs inside `s` carries every pattern it contains into `s`. */
  lemma ContainsWithin(s: string, r: string, i: int, p: string)
    requires OccursAt(s, r, i) && Contains(r, p)
    ensures Contains(s, p)
  {
    assert s == s[..i] + r + s[i + |r|..];
    ContainsExtend(s[..i], r, s[i + |r|..], p);
  }

  /** A sanitised block does not contain such a heading. */
  lemma SanitizeBlockNoHeading(t: string, heading: string, k: nat)
    requires MarkerAt(heading, k) && k >= 4 && heading[k - 2] != '#'
    ensures !Contains(SanitizeBlock(t), heading)
  {
    var e := EscapeMarkers(t);
    var r := SanitizeBlock(t);
    var i :| OccursAt(e, r, i);
    EscapeMarkersGuarded(t);
    GuardedNoHeading(e, heading, k);
    if Contains(r, heading) {
      ContainsWithin(e, r, i, heading);
    }
  }

  const SystemTitle: string := "### SYSTEM ###"
  const UserTitle: string := "### USER ###"
  const DataTitle: string := "### DATA (filtered input) ###"

  /** A sanitised block neither starts nor ends with whitespace, and it never contains one of
      the three section titles, so it cannot open a fake section of the layout. */
  lemma SanitizeBlockSpec(t: string)
    ensures var r := SanitizeBlock(t); r == [] || (!IsSpace(r[0]) && !IsSpace(r[|r| - 1]))
    ensures !Contains(SanitizeBlock(t), SystemTitle)
    ensures !Contains(SanitizeBlock(t), UserTitle)
    ensures !Contains(SanitizeBlock(t), DataTitle)
  {
    SystemTitleShape();
    SanitizeBlockNoHeading(t, SystemTitle, 11);
    UserTitleShape();
    SanitizeBlockNoHeading(t, UserTitle, 9);
    DataTitleShape();
    SanitizeBlockNoHeading(t, DataTitle, 26);
  }

  lemma SystemTitleShape()
    ensures MarkerAt(SystemTitle, 11) && SystemTitle[9] != '#'
  {
  }

  lemma UserTitleShape()
    ensures MarkerAt(UserTitle, 9) && UserTitle[7] != '#'
  {
  }

  lemma DataTitleShape()
    ensures MarkerAt(DataTitle, 26) && DataTitle[24] != '#'
  {
  }

  /** sanitize_block(text): escape the marker, then strip. */
  function SanitizeBlock(t: string): string {
    Strip(EscapeMarkers(t))
  }

  /** shorten(text, max_len): unchanged when it fits; otherwise textwrap.shorten, which
      returns at most `maxLen` characters. */
  function Shorten(long: Shortener, t: string, maxLen: nat): (r: string)
    ensures |t| <= maxLen ==> r == t
    ensures |r| <= maxLen
  {
    if |t| > maxLen then long(t, maxLen) else t
  }

  datatype Meta = Meta(userLen: nat, dataLen: nat, truncated: bool)

  datatype PromptRecord = PromptRecord(prompt: string, hash: string, meta: Meta)

  /** The data block: the placeholder when no data was given, else the sanitised, capped data. */
  function DataBlock(long: Shortener, data: string): (b: string)
    ensures data == [] ==> b == NoDataPlaceholder
    ensures data != [] ==> b == Shorten(long, SanitizeBlock(data), MaxDataChars)
    ensures |b| <= MaxDataChars
  {
    if data != [] then Shorten(long, SanitizeBlock(data), MaxDataChars) else NoDataPlaceholder
  }

  /** build_prompt(system_prompt, user_prompt, clean_data). The record's hash is the hash of
      its prompt; the prompt is the three-section layout of the sanitised system block, the
      capped user block and the data block, and splitting it by the lengths in `meta` gives
      those blocks back; the user block is at most 3000 characters and the data block at most
      5000; `truncated` compares the raw inputs, not the escaped ones, with the caps. */
  function BuildPrompt(hash: Hasher, long: Shortener, system: string, user: string, data: string)
    : (r: PromptRecord)
    ensures r.hash == hash(r.prompt)
    ensures r.meta.userLen <= MaxUserChars && r.meta.dataLen <= MaxDataChars
    ensures r.meta.truncated <==> |user| > MaxUserChars || |data| > MaxDataChars
    ensures Split(r.prompt, r.meta.userLen, r.meta.dataLen)
         == Some(Sections(SanitizeBlock(system), Shorten(long, SanitizeBlock(user), MaxUserChars),
                          DataBlock(long, data)))
  {
    var systemBlock := SanitizeBlock(system);
    var userBlock := Shorten(long, SanitizeBlock(user), MaxUserChars);
    var dataBlock := DataBlock(long, data);
    var sections := Sections(systemBlock, userBlock, dataBlock);
    var prompt := Assemble(sections);
    SplitAssemble(sections);
    PromptRecord(prompt, hash(prompt),
      Meta(|userBlock|, |dataBlock|, |user| > MaxUserChars || |data| > MaxDataChars))
  }

  /** A long user prompt is reported as truncated and its block still fits the cap. */
  lemma LongUserPromptTruncated(hash: Hasher, long: Shortener, system: string, user: string, data: string)
    requires |user| > MaxUserChars
    ensures BuildPrompt(hash, long, system, user, data).meta.truncated
    ensures BuildPrompt(hash, long, system, user, data).meta.userLen <= MaxUserChars
  {
  }
}

=== FILE: prompt_layout.dfy ===
/** The three-section prompt layout both prompt builders emit, and the inverse that cuts a
    prompt back into its sections given the lengths of the user and data blocks. */
module PromptLayout {
  import opened Wrappers

  const SystemHeader: string := "### SYSTEM ###\n"
  const UserHeader: string := "\n\n### USER ###\n"
  const DataHeader: string := "\n\n### DATA (filtered input) ###\n"
  const NoDataPlaceholder: string := "[No external data provided]"

  datatype Sections = Sections(system: string, user: string, data: string)

  /** The f-string of both builders: three headers, three blocks, a final line feed. */
  function Assemble(s: Sections): string {
    SystemHeader + s.system + UserHeader + s.user + DataHeader + s.data + "\n"
  }

  /** Fixed characters a layout adds around its blocks. */
  const Overhead: nat := |SystemHeader| + |UserHeader| + |DataHeader| + 1

  /** `s` without its leading `prefix`, if it has it. */
  function DropPrefix(s: string, prefix: string): (r: Option<string>)
    ensures r.Some? ==> prefix + r.value == s
  {
    if |prefix| <= |s| && s[..|prefix|] == prefix then Some(s[|prefix|..]) else None
  }

  /** `s` without its trailing `suffix`, if it has it. */
  function DropSuffix(s: string, suffix: string): (r: Option<string>)
    ensures r.Some? ==> r.value + suffix == s
  {
    if |suffix| <= |s| && s[|s| - |suffix|..] == suffix then Some(s[..|s| - |suffix|]) else None
  }

  /** `s` cut before its last `n` characters. */
  function CutLast(s: string, n: nat): (r: (string, string))
    requires n <= |s|
    ensures |r.1| == n && r.0 + r.1 == s
  {
    (s[..|s| - n], s[|s| - n..])
  }

  lemma DropPrefixAppend(a: string, b: string)
    ensures DropPrefix(a + b, a) == Some(b)
  {
    assert (a + b)[..|a|] == a;
    assert (a + b)[|a|..] == b;
  }

  lemma DropSuffixAppend(a: string, b: string)
    ensures DropSuffix(a + b, b) == Some(a)
  {
    assert (a + b)[|a|..] == b;
    assert (a + b)[..|a|] == a;
  }

  lemma CutLastAppend(a: string, b: string)
    ensures CutLast(a + b, |b|) == (a, b)
  {
    assert (a + b)[|a|..] == b;
    assert (a + b)[..|a|] == a;
  }

  /** Cuts a prompt into sections, peeling the final line feed, the data block, the data
      header, the user block, the user header and the system header in turn; None when the
      prompt does not have the layout. */
  function Split(prompt: string, userLen: nat, dataLen: nat): (r: Option<Sections>)
    ensures r.Some? ==> |r.value.user| == userLen && |r.value.data| == dataLen
  {
    var body := DropSuffix(prompt, "\n");
    if body.None? || |body.value| < dataLen then None
    else
      var (beforeData, data) := CutLast(body.value, dataLen);
      var withUser := DropSuffix(beforeData, DataHeader);
      if withUser.None? || |withUser.value| < userLen then None
      else
        var (beforeUser, user) := CutLast(withUser.value, userLen);
        var withSystem := DropSuffix(beforeUser, UserHeader);
        if withSystem.None? then None
        else
          var system := DropPrefix(withSystem.value, SystemHeader);
          if system.None? then None
          else Some(Sections(system.value, user, data))
  }

  /** Splitting an assembled prompt by its block lengths gives back its sections. */
  lemma SplitAssemble(s: Sections)
    ensures Split(Assemble(s), |s.user|, |s.data|) == Some(s)
  {
    var a := SystemHeader + s.system;
    var b := a + UserHeader;
    var c := b + s.user;
    var d := c + DataHeader;
    var e := d + s.data;
    assert Assemble(s) == e + "\n";
    DropSuffixAppend(e, "\n");
    CutLastAppend(d, s.data);
    DropSuffixAppend(c, DataHeader);
    CutLastAppend(b, s.user);
    DropSuffixAppend(a, UserHeader);
    DropPrefixAppend(SystemHeader, s.system);
  }

  /** Whatever Split accepts reassembles to the prompt it came from. */
  lemma AssembleSplit(prompt: string, userLen: nat, dataLen: nat)
    requires Split(prompt, userLen, dataLen).Some?
    ensures Assemble(Split(prompt, userLen, dataLen).value) == prompt
  {
    var s := Split(prompt, userLen, dataLen).value;
    var e := DropSuffix(prompt, "\n").value;
    var d := CutLast(e, dataLen).0;
    var c := DropSuffix(d, DataHeader).value;
    var b := CutLast(c, userLen).0;
    var a := DropSuffix(b, UserHeader).value;
    assert a == SystemHeader + s.system;
    assert b == a + UserHeader;
    assert c == b + s.user;
    assert d == c + DataHeader;
    assert e == d + s.data;
  }

  /** Every assembled prompt starts with the system header, ends with a line feed and is the
      blocks plus a fixed overhead long. */
  lemma AssembleShape(s: Sections)
    ensures var p := Assemble(s);
      && |p| == Overhead + |s.system| + |s.user| + |s.data|
      && p[..|SystemHeader|] == SystemHeader
      && p[|p| - 1] == '\n'
  {
  }
}

=== FILE: sanitizer.dfy ===
/** Sanitizer v1.1: strip tags, strip zero-width characters, unescape HTML entities, then
    neutralise dangerous phrases while recording which rules fired. Regular-expression
    search and substitution (case-insensitive) and html.unescape are supplied by the caller. */
module Sanitizer {
  import opened Seqs
  import opened Externals
  import opened TextFilters

  /** One entry of the ordered pattern -> tag table. */
  datatype PhraseRule = PhraseRule(pattern: string, tag: string)

  /** The table, in the order the dictionary literal lists it. */
  const DangerousPhrases: seq<PhraseRule> := [
    PhraseRule("\\bignore all previous instructions\\b", "ignore_block"),
    PhraseRule("\\byou are now\\b.*", "role_switch"),
    PhraseRule("\\bact as\\b.*", "identity_shift"),
    PhraseRule("\\bforget everything\\b.*", "memory_wipe"),
    PhraseRule("\\brespond with\\b.*", "forced_response")
  ]

  /** The literal that replaces every match of a rule. */
  function Marker(tag: string): (m: string)
    ensures |m| == |tag| + 11
    ensures m[..10] == "[FILTERED:" && m[10..|m| - 1] == tag && m[|m| - 1] == ']'
  {
    "[FILTERED:" + tag + "]"
  }

  function Tags(rules: seq<PhraseRule>): (ts: seq<string>)
    ensures |ts| == |rules|
    ensures forall k :: 0 <= k < |rules| ==> ts[k] == rules[k].tag
  {
    seq(|rules|, k requires 0 <= k < |rules| => rules[k].tag)
  }

  predicate DistinctTags(rules: seq<PhraseRule>) {
    NoDuplicates(Tags(rules))
  }

  datatype Neutralized = Neutralized(text: string, removed: seq<string>)

  /** The text after one rule: rewritten when its pattern is found, untouched otherwise. */
  function Step(re: RegexEngine, rule: PhraseRule, text: string): string {
    if re.search(rule.pattern, text) then re.sub(rule.pattern, Marker(rule.tag), text) else text
  }

  /** The text as the first `k` rules left it. */
  function Stage(re: RegexEngine, rules: seq<PhraseRule>, text: string, k: nat): string
    requires k <= |rules|
    decreases k
  {
    if k == 0 then text else Step(re, rules[k - 1], Stage(re, rules, text, k - 1))
  }

  /** Rule `k` fires when its pattern is found in the text the earlier rules produced. */
  predicate Fires(re: RegexEngine, rules: seq<PhraseRule>, text: string, k: nat)
    requires k < |rules|
  {
    re.search(rules[k].pattern, Stage(re, rules, text, k))
  }

  /** The loop of neutralize_dangerous_phrases over a rule table. */
  function Neutralize(re: RegexEngine, rules: seq<PhraseRule>, text: string): Neutralized
    decreases |rules|
  {
    if rules == [] then Neutralized(text, [])
    else
      var rest := Neutralize(re, rules[1..], Step(re, rules[0], text));
      if re.search(rules[0].pattern, text) then Neutralized(rest.text, [rules[0].tag] + rest.removed)
      else rest
  }

  /** neutralize_dangerous_phrases(text). */
  function NeutralizeDangerousPhrases(re: RegexEngine, text: string): Neutralized {
    Neutralize(re, DangerousPhrases, text)
  }

  /** Running the first rule and then the rest is the same as staging the whole table. */
  lemma {:induction false} StageShift(re: RegexEngine, rules: seq<PhraseRule>, text: string, k: nat)
    requires 0 < |rules| && k < |rules|
    ensures Stage(re, rules, text, k + 1) == Stage(re, rules[1..], Step(re, rules[0], text), k)
    decreases k
  {
    if k > 0 {
      StageShift(re, rules, text, k - 1);
    }
  }

  /** The text the loop ends with is the last stage. */
  lemma {:induction false} NeutralizeText(re: RegexEngine, rules: seq<PhraseRule>, text: string)
    ensures Neutralize(re, rules, text).text == Stage(re, rules, text, |rules|)
    decreases |rules|
  {
    if rules != [] {
      NeutralizeText(re, rules[1..], Step(re, rules[0], text));
      if |rules| > 1 {
        StageShift(re, rules, text, |rules| - 1);
      }
    }
  }

  /** Tags are recorded in table order, each rule contributing at most one. */
  lemma {:induction false} NeutralizeOrder(re: RegexEngine, rules: seq<PhraseRule>, text: string)
    ensures IsSubsequence(Neutralize(re, rules, text).removed, Tags(rules))
    decreases |rules|
  {
    if rules != [] {
      var rest := Neutralize(re, rules[1..], Step(re, rules[0], text));
      NeutralizeOrder(re, rules[1..], Step(re, rules[0], text));
      assert Tags(rules)[1..] == Tags(rules[1..]);
      if re.search(rules[0].pattern, text) {
        SubsequenceCons(rules[0].tag, rest.removed, Tags(rules));
      } else {
        SubsequenceSkip(rest.removed, Tags(rules));
      }
    }
  }

  /** Dropping the first rule keeps the remaining tags distinct. */
  lemma DistinctTagsTail(rules: seq<PhraseRule>)
    requires rules != [] && DistinctTags(rules)
    ensures DistinctTags(rules[1..])
    ensures forall k :: 0 <= k < |rules| - 1 ==> rules[1..][k].tag != rules[0].tag
  {
    var tail := rules[1..];
    forall i, j | 0 <= i < j < |tail| ensures Tags(tail)[i] != Tags(tail)[j] {
      assert Tags(rules)[i + 1] != Tags(rules)[j + 1];
    }
    forall k | 0 <= k < |tail| ensures tail[k].tag != rules[0].tag {
      assert Tags(rules)[k + 1] != Tags(rules)[0];
    }
  }

  /** A rule's tag is recorded exactly when the rule fires on the text the earlier rules left. */
  lemma {:induction false} NeutralizeFiresAt(re: RegexEngine, rules: seq<PhraseRule>, text: string, k: nat)
    requires DistinctTags(rules) && k < |rules|
    ensures rules[k].tag in Neutralize(re, rules, text).removed <==> Fires(re, rules, text, k)
    decreases |rules|
  {
    var tail := rules[1..];
    var next := Step(re, rules[0], text);
    var rest := Neutralize(re, tail, next);
    DistinctTagsTail(rules);
    if k == 0 {
      NeutralizeOrder(re, tail, next);
      SubsequenceElements(rest.removed, Tags(tail));
      assert rules[0].tag !in rest.removed;
    } else {
      NeutralizeFiresAt(re, tail, next, k - 1);
      StageShift(re, rules, text, k - 1);
      assert rules[k] == tail[k - 1];
    }
  }

  lemma NeutralizeFires(re: RegexEngine, rules: seq<PhraseRule>, text: string)
    requires DistinctTags(rules)
    ensures forall k :: 0 <= k < |rules| ==>
              (rules[k].tag in Neutralize(re, rules, text).removed <==> Fires(re, rules, text, k))
  {
    forall k | 0 <= k < |rules|
      ensures rules[k].tag in Neutralize(re, rules, text).removed <==> Fires(re, rules, text, k)
    {
      NeutralizeFiresAt(re, rules, text, k);
    }
  }

  /** The bookkeeping of the phrase stage: the final text is the last stage; the recorded
      tags follow the table order without repeats and are no more than the rules; a rule's
      tag is recorded exactly when the rule fires on the text the earlier rules left. */
  lemma NeutralizeSpec(re: RegexEngine, rules: seq<PhraseRule>, text: string)
    requires DistinctTags(rules)
    ensures Neutralize(re, rules, text).text == Stage(re, rules, text, |rules|)
    ensures IsSubsequence(Neutralize(re, rules, text).removed, Tags(rules))
    ensures NoDuplicates(Neutralize(re, rules, text).removed)
    ensures |Neutralize(re, rules, text).removed| <= |rules|
    ensures forall k :: 0 <= k < |rules| ==>
              (rules[k].tag in Neutralize(re, rules, text).removed <==> Fires(re, rules, text, k))
  {
    NeutralizeText(re, rules, text);
    NeutralizeOrder(re, rules, text);
    SubsequenceElements(Neutralize(re, rules, text).removed, Tags(rules));
    SubsequenceNoDuplicates(Neutralize(re, rules, text).removed, Tags(rules));
    NeutralizeFires(re, rules, text);
  }

  /** When no pattern is found in the text, the stage is the identity and records nothing;
      the removed list is empty only in that case. */
  lemma {:induction false} NeutralizeNoMatch(re: RegexEngine, rules: seq<PhraseRule>, text: string)
    ensures Neutralize(re, rules, text).removed == [] <==>
              forall k :: 0 <= k < |rules| ==> !re.search(rules[k].pattern, text)
    ensures (forall k :: 0 <= k < |rules| ==> !re.search(rules[k].pattern, text)) ==>
              Neutralize(re, rules, text).text == text
    decreases |rules|
  {
    if rules != [] {
      var tail := rules[1..];
      if re.search(rules[0].pattern, text) {
      } else {
        NeutralizeNoMatch(re, tail, text);
        assert forall k :: 0 < k < |rules| ==> rules[k] == tail[k - 1];
      }
    }
  }

  /** The table's tags are pairwise distinct. */
  lemma DangerousPhrasesDistinct()
    ensures DistinctTags(DangerousPhrases)
    ensures Tags(DangerousPhrases) == ["ignore_block", "role_switch", "identity_shift", "memory_wipe", "forced_response"]
  {
  }

  /** neutralize_dangerous_phrases on the fixed table: at most five tags, each at most once,
      in table order, each recorded exactly when its rule fires. */
  lemma NeutralizeDangerousPhrasesSpec(re: RegexEngine, text: string)
    ensures var r := NeutralizeDangerousPhrases(re, text);
      && |r.removed| <= 5
      && NoDuplicates(r.removed)
      && IsSubsequence(r.removed, Tags(DangerousPhrases))
      && r.text == Stage(re, DangerousPhrases, text, 5)
      && forall k :: 0 <= k < 5 ==>
           (DangerousPhrases[k].tag in r.removed <==> Fires(re, DangerousPhrases, text, k))
  {
    DangerousPhrasesDistinct();
    NeutralizeSpec(re, DangerousPhrases, text);
  }

  datatype SanitizationResult = SanitizationResult(
    cleanText: string, removed: seq<string>, originalLength: nat, cleanedLength: nat)

  /** sanitize_text(raw_text). */
  function SanitizeText(re: RegexEngine, unescape: Unescaper, raw: string): (r: SanitizationResult)
    ensures r.originalLength == |raw| && r.cleanedLength == |r.cleanText|
  {
    var text := unescape(RemoveZeroWidth(StripTags(raw)));
    var n := NeutralizeDangerousPhrases(re, text);
    SanitizationResult(n.text, n.removed, |raw|, |n.text|)
  }

  /** The four stages in order: the phrase stage sees exactly the unescaped, filtered,
      tag-free text, and its bookkeeping carries over to the result. */
  lemma SanitizeTextSpec(re: RegexEngine, unescape: Unescaper, raw: string)
    ensures var r := SanitizeText(re, unescape, raw);
      var staged := unescape(RemoveZeroWidth(StripTags(raw)));
      && r.cleanText == Stage(re, DangerousPhrases, staged, 5)
      && |r.removed| <= 5
      && NoDuplicates(r.removed)
      && IsSubsequence(r.removed, Tags(DangerousPhrases))
      && (r.removed == [] <==> forall k :: 0 <= k < 5 ==> !re.search(DangerousPhrases[k].pattern, staged))
  {
    var staged := unescape(RemoveZeroWidth(StripTags(raw)));
    NeutralizeDangerousPhrasesSpec(re, staged);
    NeutralizeNoMatch(re, DangerousPhrases, staged);
  }

  /** Clean input passes through unchanged with nothing recorded: no tags, no zero-width
      characters, nothing for html.unescape to decode and no dangerous phrase. */
  lemma SanitizeTextCleanInput(re: RegexEngine, unescape: Unescaper, raw: string)
    requires TagFree(raw) && NoZeroWidth(raw) && unescape(raw) == raw
    requires forall k :: 0 <= k < |DangerousPhrases| ==> !re.search(DangerousPhrases[k].pattern, raw)
    ensures SanitizeText(re, unescape, raw) == SanitizationResult(raw, [], |raw|, |raw|)
  {
    StripTagsIdentityIff(raw);
    RemoveZeroWidthIdentityIff(raw);
    NeutralizeNoMatch(re, DangerousPhrases, raw);
  }
}

=== FILE: seqs.dfy ===
/** Order and uniqueness facts about sequences, shared by the stages that collect lists. */
module Seqs {

  /** True iff `a` can be obtained from `b` by deleting elements (order kept). */
  predicate IsSubsequence<T(==)>(a: seq<T>, b: seq<T>)
    decreases |b|
  {
    if a == [] then true
    else if b == [] then false
    else (a[0] == b[0] && IsSubsequence(a[1..], b[1..])) || IsSubsequence(a, b[1..])
  }

  /** True iff no element occurs twice. */
  predicate NoDuplicates<T(==)>(a: seq<T>) {
    forall i, j :: 0 <= i < j < |a| ==> a[i] != a[j]
  }

  /** Every element of a subsequence is an element of the sequence, and it is no longer. */
  lemma {:induction false} SubsequenceElements<T>(a: seq<T>, b: seq<T>)
    requires IsSubsequence(a, b)
    ensures forall x :: x in a ==> x in b
    ensures |a| <= |b|
    decreases |b|
  {
    if a == [] {
    } else if a[0] == b[0] && IsSubsequence(a[1..], b[1..]) {
      SubsequenceElements(a[1..], b[1..]);
      forall x | x in a ensures x in b {
        if x != a[0] {
          assert x in a[1..];
        }
      }
    } else {
      SubsequenceElements(a, b[1..]);
    }
  }

  /** A subsequence of a duplicate-free sequence is duplicate-free. */
  lemma {:induction false} SubsequenceNoDuplicates<T>(a: seq<T>, b: seq<T>)
    requires IsSubsequence(a, b)
    requires NoDuplicates(b)
    ensures NoDuplicates(a)
    decreases |b|
  {
    if a == [] {
    } else if a[0] == b[0] && IsSubsequence(a[1..], b[1..]) {
      SubsequenceNoDuplicates(a[1..], b[1..]);
      SubsequenceElements(a[1..], b[1..]);
      assert a[0] !in b[1..] by {
        forall k | 0 <= k < |b[1..]| ensures b[1..][k] != b[0] {
          assert b[1..][k] == b[k + 1];
        }
      }
      forall i, j | 0 <= i < j < |a| ensures a[i] != a[j] {
        if i == 0 {
          assert a[j] == a[1..][j - 1];
        } else {
          assert a[i] == a[1..][i - 1] && a[j] == a[1..][j - 1];
        }
      }
    } else {
      assert NoDuplicates(b[1..]) by {
        forall i, j | 0 <= i < j < |b[1..]| ensures b[1..][i] != b[1..][j] {
          assert b[1..][i] == b[i + 1] && b[1..][j] == b[j + 1];
        }
      }
      SubsequenceNoDuplicates(a, b[1..]);
    }
  }

  /** Extending a subsequence with the head of the sequence keeps it a subsequence. */
  lemma SubsequenceCons<T>(x: T, a: seq<T>, b: seq<T>)
    requires b != [] && b[0] == x
    requires IsSubsequence(a, b[1..])
    ensures IsSubsequence([x] + a, b)
  {
    assert ([x] + a)[1..] == a;
  }

  /** Skipping the head of the sequence keeps a subsequence. */
  lemma SubsequenceSkip<T>(a: seq<T>, b: seq<T>)
    requires b != []
    requires IsSubsequence(a, b[1..])
    ensures IsSubsequence(a, b)
  {
  }
}

=== FILE: strings.dfy ===
/** Python's str.strip(), an ASCII approximation of str.lower(), and substring search. */
module Strings {

  /** The code points Python's str.isspace() accepts; str.strip() with no argument removes these. */
  predicate IsSpace(c: char) {
    || ('\t' <= c <= '\r')
    || ('\U{1C}' <= c <= '\U{1F}')
    || c == ' '
    || c == '\U{85}'
    || c == '\U{A0}'
    || c == '\U{1680}'
    || ('\U{2000}' <= c <= '\U{200A}')
    || c == '\U{2028}'
    || c == '\U{2029}'
    || c == '\U{202F}'
    || c == '\U{205F}'
    || c == '\U{3000}'
  }

  /** Removes the longest whitespace prefix. */
  function TrimStart(s: string): (r: string)
    ensures |r| <= |s| && r == s[|s| - |r|..]
    ensures forall k :: 0 <= k < |s| - |r| ==> IsSpace(s[k])
    ensures r == [] || !IsSpace(r[0])
    decreases |s|
  {
    if |s| > 0 && IsSpace(s[0]) then TrimStart(s[1..]) else s
  }

  /** Removes the longest whitespace suffix. */
  function TrimEnd(s: string): (r: string)
    ensures |r| <= |s| && r == s[..|r|]
    ensures forall k :: |r| <= k < |s| ==> IsSpace(s[k])
    ensures r == [] || !IsSpace(r[|r| - 1])
    decreases |s|
  {
    if |s| > 0 && IsSpace(s[|s| - 1]) then TrimEnd(s[..|s| - 1]) else s
  }

  /** Python's s.strip(): the result neither starts nor ends with whitespace, and it is the
      contiguous middle of `s` left once whitespace-only ends are cut off. */
  function Strip(s: string): (r: string)
    ensures r == [] || (!IsSpace(r[0]) && !IsSpace(r[|r| - 1]))
    ensures exists i :: OccursAt(s, r, i)
                        && (forall k :: 0 <= k < i ==> IsSpace(s[k]))
                        && (forall k :: i + |r| <= k < |s| ==> IsSpace(s[k]))
  {
    var t := TrimStart(s);
    var r := TrimEnd(t);
    assert r == s[|s| - |t|..|s| - |t| + |r|];
    assert OccursAt(s, r, |s| - |t|);
    r
  }

  /** Stripping removes everything exactly when the string is all whitespace. */
  lemma StripEmptyIff(s: string)
    ensures Strip(s) == [] <==> forall k :: 0 <= k < |s| ==> IsSpace(s[k])
  {
    var t := TrimStart(s);
    if t != [] {
      assert !IsSpace(s[|s| - |t|]);
    }
  }

  /** ASCII lower-casing of one character. */
  function LowerChar(c: char): char {
    if 'A' <= c <= 'Z' then (c as int + 32) as char else c
  }

  /** ASCII approximation of Python's s.lower(): same length, no upper-case letter is left,
      every other character is kept, and each upper-case letter becomes its lower-case
      partner, 32 code points further on. */
  function LowerAscii(s: string): (r: string)
    ensures |r| == |s|
    ensures forall k :: 0 <= k < |r| ==> !('A' <= r[k] <= 'Z')
    ensures forall k :: 0 <= k < |s| && !('A' <= s[k] <= 'Z') ==> r[k] == s[k]
    ensures forall k :: 0 <= k < |s| && 'A' <= s[k] <= 'Z' ==>
              'a' <= r[k] <= 'z' && r[k] as int == s[k] as int + 32
    ensures forall k :: 0 <= k < |s| ==> r[k] == LowerChar(s[k])
  {
    seq(|s|, k requires 0 <= k < |s| => LowerChar(s[k]))
  }

  /** Lower-casing lower-cased text changes nothing. */
  lemma LowerAsciiIdempotent(s: string)
    ensures LowerAscii(LowerAscii(s)) == LowerAscii(s)
  {
    var r := LowerAscii(s);
    assert forall k :: 0 <= k < |r| ==> LowerAscii(r)[k] == r[k];
  }

  /** Lower-casing commutes with concatenation. */
  lemma LowerAsciiAppend(a: string, b: string)
    ensures LowerAscii(a + b) == LowerAscii(a) + LowerAscii(b)
  {
  }

  /** True iff `p` occurs in `s` at position `i`. */
  predicate OccursAt(s: string, p: string, i: int) {
    0 <= i <= |s| - |p| && s[i..i + |p|] == p
  }

  /** Python's `p in s`, written as a left-to-right scan. */
  predicate Contains(s: string, p: string)
    decreases |s|
  {
    if |s| < |p| then false
    else if s[..|p|] == p then true
    else Contains(s[1..], p)
  }

  /** The scan finds `p` exactly when `p` occurs at some position. */
  lemma {:induction false} ContainsIff(s: string, p: string)
    ensures Contains(s, p) <==> exists i :: OccursAt(s, p, i)
    decreases |s|
  {
    if |s| < |p| {
    } else if s[..|p|] == p {
      assert OccursAt(s, p, 0);
    } else {
      ContainsIff(s[1..], p);
      if exists i :: OccursAt(s[1..], p, i) {
        var i :| OccursAt(s[1..], p, i);
        assert s[i + 1..i + 1 + |p|] == s[1..][i..i + |p|];
        assert OccursAt(s, p, i + 1);
      }
      if exists i :: OccursAt(s, p, i) {
        var i :| OccursAt(s, p, i);
        assert i != 0;
        assert s[1..][i - 1..i - 1 + |p|] == s[i..i + |p|];
        assert OccursAt(s[1..], p, i - 1);
      }
    }
  }

  /** An occurrence survives text added on either side. */
  lemma ContainsExtend(pre: string, s: string, post: string, p: string)
    requires Contains(s, p)
    ensures Contains(pre + s + post, p)
  {
    ContainsIff(s, p);
    var i :| OccursAt(s, p, i);
    assert (pre + s + post)[|pre| + i..|pre| + i + |p|] == s[i..i + |p|];
    assert OccursAt(pre + s + post, p, |pre| + i);
    ContainsIff(pre + s + post, p);
  }

  /** The number a string of decimal digits denotes, most significant digit first. */
  ghost function DecimalValue(r: string): nat
    decreases |r|
  {
    if r == [] then 0
    else
      var d := r[|r| - 1] as int - '0' as int;
      DecimalValue(r[..|r| - 1]) * 10 + (if d < 0 then 0 else d)
  }

  /** Decimal digits of a natural number, as Python's f"{n}" writes it: the digits denote
      `n`, and there is no leading zero. */
  function NatToString(n: nat): (r: string)
    ensures |r| >= 1
    ensures forall k :: 0 <= k < |r| ==> '0' <= r[k] <= '9'
    ensures n >= 10 ==> r[0] != '0'
    ensures DecimalValue(r) == n
    decreases n
  {
    if n < 10 then
      assert [Digit(n)][..0] == [];
      [Digit(n)]
    else
      var front := NatToString(n / 10);
      var r := front + [Digit(n % 10)];
      assert r[..|r| - 1] == front;
      r
  }

  function Digit(d: nat): (c: char)
    requires d < 10
    ensures '0' <= c <= '9'
    ensures c as int - '0' as int == d
  {
    ('0' as int + d) as char
  }
}

=== FILE: text_filters.dfy ===
/** The two character-level scanners both sanitizer versions share:
    re.sub(r'<[^>]+>', '', text) and re.sub(r'[\u200B-\u200D\uFEFF]', '', text). */
module TextFilters {
  import opened Wrappers
  import opened Seqs

  // ---------------------------------------------------------------------------
  // Markup tags
  // ---------------------------------------------------------------------------

  /** s[i..j+1] is a match of the pattern <[^>]+> : a '<', at least one character that is
      not '>', then '>'. */
  ghost predicate TagSpan(s: string, i: int, j: int) {
    0 <= i && i + 1 < j < |s| && s[i] == '<' && s[j] == '>'
    && forall k :: i < k < j ==> s[k] != '>'
  }

  /** No match of <[^>]+> anywhere. */
  ghost predicate TagFree(s: string) {
    forall i, j :: !TagSpan(s, i, j)
  }

  /** Position of the first '>' at or after `from`. */
  function NextGt(s: string, from: nat): (r: Option<nat>)
    requires from <= |s|
    ensures r.Some? ==> from <= r.value < |s| && s[r.value] == '>'
                        && forall k :: from <= k < r.value ==> s[k] != '>'
    ensures r.None? ==> forall k :: from <= k < |s| ==> s[k] != '>'
    decreases |s| - from
  {
    if from == |s| then None
    else if s[from] == '>' then Some(from)
    else NextGt(s, from + 1)
  }

  /** re.sub(r'<[^>]+>', '', s): scanning left to right, a '<' whose first following '>' is
      not its immediate neighbour starts a match ending at that '>'; the match is dropped and
      scanning resumes after it. Any other character is kept. */
  function StripTags(s: string): string
    decreases |s|
  {
    if s == [] then []
    else if s[0] == '<' && NextGt(s, 1).Some? && NextGt(s, 1).value >= 2 then
      StripTags(s[NextGt(s, 1).value + 1..])
    else
      [s[0]] + StripTags(s[1..])
  }

  /** Characters outside removed spans survive in their original order. */
  lemma {:induction false} StripTagsSubsequence(s: string)
    ensures IsSubsequence(StripTags(s), s)
    decreases |s|
  {
    if s == [] {
    } else if s[0] == '<' && NextGt(s, 1).Some? && NextGt(s, 1).value >= 2 {
      var j := NextGt(s, 1).value;
      StripTagsSubsequence(s[j + 1..]);
      SkipPrefixSubsequence(StripTags(s[j + 1..]), s, j + 1);
    } else {
      StripTagsSubsequence(s[1..]);
      SubsequenceCons(s[0], StripTags(s[1..]), s);
    }
  }

  lemma {:induction false} SkipPrefixSubsequence<T>(a: seq<T>, b: seq<T>, n: nat)
    requires n <= |b|
    requires IsSubsequence(a, b[n..])
    ensures IsSubsequence(a, b)
    decreases n
  {
    if n > 0 {
      assert b[1..][n - 1..] == b[n..];
      SkipPrefixSubsequence(a, b[1..], n - 1);
      SubsequenceSkip(a, b);
    }
  }

  /** A string not starting with '<' keeps its first character. */
  lemma StripTagsHead(s: string)
    requires s != [] && s[0] != '<'
    ensures StripTags(s) == [s[0]] + StripTags(s[1..])
  {
  }

  /** The output of the tag stripper contains no tag-shaped span. */
  lemma {:induction false} StripTagsTagFree(s: string)
    ensures TagFree(StripTags(s))
    decreases |s|
  {
    if s == [] {
    } else if s[0] == '<' && NextGt(s, 1).Some? && NextGt(s, 1).value >= 2 {
      StripTagsTagFree(s[NextGt(s, 1).value + 1..]);
    } else {
      var rest := StripTags(s[1..]);
      var r := [s[0]] + rest;
      assert StripTags(s) == r;
      StripTagsTagFree(s[1..]);
      forall i, j ensures !TagSpan(r, i, j) {
        if i > 0 && TagSpan(r, i, j) {
          forall k | i - 1 < k < j - 1 ensures rest[k] != '>' {
            assert rest[k] == r[k + 1];
          }
          assert TagSpan(rest, i - 1, j - 1);
        } else if i == 0 && s[0] == '<' {
          if |s| > 1 && s[1] == '>' {
            StripTagsHead(s[1..]);
            assert r[1] == '>';
          } else {
            assert NextGt(s, 1).None?;
            StripTagsSubsequence(s[1..]);
            SubsequenceElements(rest, s[1..]);
            assert '>' !in s[1..];
            assert forall k :: 1 <= k < |r| ==> r[k] == rest[k - 1];
          }
        }
      }
    }
  }

  /** Text without '<' passes through, whatever follows it. */
  lemma {:induction false} StripTagsNoOpenPrefix(p: string, t: string)
    requires '<' !in p
    ensures StripTags(p + t) == p + StripTags(t)
    decreases |p|
  {
    if p != [] {
      assert (p + t)[0] == p[0];
      assert (p + t)[1..] == p[1..] + t;
      StripTagsNoOpenPrefix(p[1..], t);
    } else {
      assert p + t == t;
    }
  }

  /** An element with a non-empty tag name and a body free of '<' is reduced to its body. */
  lemma StripTagsWrapped(name: string, body: string)
    requires name != [] && '>' !in name && '<' !in body
    ensures StripTags("<" + name + ">" + body + "</" + name + ">") == body
  {
    var close := "</" + name + ">";
    var s := "<" + name + ">" + (body + close);
    assert s == "<" + name + ">" + body + "</" + name + ">";
    var j := |name| + 1;
    assert s[j] == '>' && forall k :: 1 <= k < j ==> s[k] == name[k - 1];
    assert NextGt(s, 1) == Some(j);
    assert s[j + 1..] == body + close;
    StripTagsNoOpenPrefix(body, close);
    assert close[|name| + 2] == '>' && forall k :: 1 <= k < |name| + 2 ==> close[k] != '>';
    assert NextGt(close, 1) == Some(|name| + 2);
    assert close[|name| + 3..] == [];
  }

  /** The stripper changes its input exactly when the input holds a tag-shaped span. */
  lemma {:induction false} StripTagsIdentityIff(s: string)
    ensures StripTags(s) == s <==> TagFree(s)
    decreases |s|
  {
    StripTagsTagFree(s);
    if s == [] {
    } else if s[0] == '<' && NextGt(s, 1).Some? && NextGt(s, 1).value >= 2 {
      var j := NextGt(s, 1).value;
      assert TagSpan(s, 0, j);
      StripTagsSubsequence(s[j + 1..]);
      SubsequenceElements(StripTags(s[j + 1..]), s[j + 1..]);
    } else {
      StripTagsIdentityIff(s[1..]);
      if TagFree(s) {
        forall i, j | TagSpan(s[1..], i, j) ensures false {
          assert TagSpan(s, i + 1, j + 1);
        }
      }
    }
  }

  /** Stripping twice is stripping once. */
  lemma StripTagsIdempotent(s: string)
    ensures StripTags(StripTags(s)) == StripTags(s)
  {
    StripTagsTagFree(s);
    StripTagsIdentityIff(StripTags(s));
  }

  // ---------------------------------------------------------------------------
  // Zero-width characters
  // ---------------------------------------------------------------------------

  /** The character class [\u200B-\u200D\uFEFF]. */
  predicate IsZeroWidth(c: char) {
    c == '\U{200B}' || c == '\U{200C}' || c == '\U{200D}' || c == '\U{FEFF}'
  }

  predicate NoZeroWidth(s: string) {
    forall k :: 0 <= k < |s| ==> !IsZeroWidth(s[k])
  }

  /** re.sub(r'[\u200B-\u200D\uFEFF]', '', s): drops the four zero-width characters. */
  function RemoveZeroWidth(s: string): (r: string)
    ensures NoZeroWidth(r)
    ensures |r| <= |s|
    decreases |s|
  {
    if s == [] then []
    else if IsZeroWidth(s[0]) then RemoveZeroWidth(s[1..])
    else [s[0]] + RemoveZeroWidth(s[1..])
  }

  /** Every other character is kept with its multiplicity, and no zero-width one is. */
  lemma {:induction false} RemoveZeroWidthCounts(s: string)
    ensures forall c :: multiset(RemoveZeroWidth(s))[c] == if IsZeroWidth(c) then 0 else multiset(s)[c]
    decreases |s|
  {
    if s != [] {
      RemoveZeroWidthCounts(s[1..]);
      assert s == [s[0]] + s[1..];
      assert multiset(s) == multiset{s[0]} + multiset(s[1..]);
    }
  }

  /** Filtering works piecewise, so the order of the kept characters is the input's. */
  lemma {:induction false} RemoveZeroWidthAppend(a: string, b: string)
    ensures RemoveZeroWidth(a + b) == RemoveZeroWidth(a) + RemoveZeroWidth(b)
    decreases |a|
  {
    if a == [] {
      assert a + b == b;
    } else {
      assert (a + b)[0] == a[0];
      assert (a + b)[1..] == a[1..] + b;
      RemoveZeroWidthAppend(a[1..], b);
    }
  }

  /** The filter is the identity exactly on strings without zero-width characters. */
  lemma {:induction false} RemoveZeroWidthIdentityIff(s: string)
    ensures RemoveZeroWidth(s) == s <==> NoZeroWidth(s)
    decreases |s|
  {
    if s != [] {
      RemoveZeroWidthIdentityIff(s[1..]);
      if IsZeroWidth(s[0]) {
        assert |RemoveZeroWidth(s)| < |s|;
      } else if NoZeroWidth(s) {
        assert NoZeroWidth(s[1..]) by {
          forall k | 0 <= k < |s[1..]| ensures !IsZeroWidth(s[1..][k]) {
            assert s[1..][k] == s[k + 1];
          }
        }
      }
    }
  }
}

=== FILE: wrappers.dfy ===
/** The Some/None datatype used for absent cache values and optional positions. */
module Wrappers {

  datatype Option<+T> = None | Some(value: T)
}
